=== FILE: README.md ===
# Markdown note migrator — a Dafny model

`scripts/migrate_markdown.py` turns markdown notes into Jekyll posts. For each
note it:

- extracts a title and up to five tags;
- finds the images the note references and copies each one into a
  content-addressed store under an 8-character hash name;
- rewrites the note's references to point at the store;
- prepends a YAML front-matter block and writes the result as
  `YYYY-MM-DD-<slug>.md`.

This project models those transformations as pure Dafny functions over strings
and proves what they promise:

| file | module | models |
|---|---|---|
| `chars.dfy` | `Chars` | ASCII character classes for `\w`, `\s`, `lower`, `upper` and "cased" |
| `strings.dfy` | `Strings` | `Option`, prefix and suffix tests, `str.strip` |
| `paths.dfy` | `Paths` | `pathlib` name, suffix, stem, parent and `/` on text |
| `percent.dfy` | `Percent` | `urllib.parse.unquote`, and an escaper it inverts |
| `title.dfy` | `Title` | `extract_title_from_content` |
| `slug.dfy` | `Slugs` | the two-step slug substitution |
| `frontmatter.dfy` | `FrontMatter` | dates, permalink, output name, `generate_jekyll_front_matter`, and a reader for the post it produces |
| `imagescan.dfy` | `ImageScan` | the two reference patterns, and `re.findall` over them |
| `resolver.dfy` | `Resolver` | `find_image_file`, `generate_image_filename`, `find_and_copy_images` |
| `rewrite.dfy` | `Rewrite`, `RewriteExamples` | `update_image_paths` |
| `tags.dfy` | `Tags` | `extract_tags_from_content` and `Counter.most_common` |
| `pipeline.dfy` | `Pipeline` | `process_markdown_file` and `process_directory` |

Each regular expression that decides a result is a hand-written scanner: the
title pattern, the two image patterns, the two rewrite patterns and the word
pattern of the tag fallback. Their contracts say that the scanner finds a
match exactly when the pattern has one, and that the match it finds is the one
Python's engine picks. The markup patterns of lines 64 to 69 are modelled only
as far as needed to show that they never match after line 63
(`Tags.MarkupAt` states where a match would have to start). Greedy quantifiers
decide the pick:

- `\s+` in the title pattern may run across newlines. The group then starts
  at the last position that still lets `.+` match.
- `[^>]+` in the `<img>` pattern makes the engine take the last `src=`
  before the first `>`.

`re.sub` scans left to right and resumes after each replacement.

Where the script and a plain-words reading of the tool differ, the model
follows the script:

- **Title.** The heading does not have to sit on one line. `#` followed by a
  newline and `foo` is titled `foo`, because `\s+` matches the newline.
- **Discovery.** In a directory, notes are matched case-sensitively. All
  `*.md` notes come before all `*.markdown` notes.
- **Rewriting escaped paths.** The mapping is keyed by the percent-decoded
  path, but the rewrite looks for that key literally. A reference written
  with `%20` is copied but keeps its old path (`RewriteExamples.EscapedExample`).
- **Tag cleaning.** The first substitution blanks every `[`, `]`, `(`, `)`,
  backquote, `#` and `*`. The link, image and code substitutions that follow
  can then never match. The text handed to keyword extraction is exactly the
  blanked text (`Tags.CleanIsBlank`).

The file system is a map from absolute path to bytes plus a working
directory, the set of existing paths that cannot be opened for reading, the
image store directory (`images` under the project root), and whether the
store accepts new files. The MD5 hex digest is an uninterpreted function. `jieba` is an
uninterpreted function that may fail. The modification date is a given
`(year, month, day)`.

## Model

| member | source | states |
|---|---|---|
| Title.HeadingAt | scripts/migrate_markdown.py:47 | `#\s+(.+)$` matches at a position exactly when the result is `Some`, and the group start returned is the largest one any match allows (greedy `\s+`) |
| Title.FirstHeading | scripts/migrate_markdown.py:47-48 | `re.search` under MULTILINE: the match found is at a line start, no earlier line start has a match, and `None` means no line start has one |
| Title.TitleIsFirstHeading | scripts/migrate_markdown.py:47-49 | when the leftmost match has its group at `s`, the title is the stripped text from `s` to the end of that line |
| Title.TitleFallback | scripts/migrate_markdown.py:51-58 | with no match anywhere, the title is the title-cased stem for a single file and exactly "Untitled Post" otherwise |
| Title.SecondLevelNeverMatches | scripts/migrate_markdown.py:47 | a line starting `##` never matches, because whitespace must follow the single `#` |
| Title.OpeningHeading | scripts/migrate_markdown.py:47-49 | a text opening with `# ` and a non-space, whose first line ends on a non-space, is titled by the rest of that line |
| Title.MyTitleExample | scripts/migrate_markdown.py:47-49 | any document starting with the line `# My Title` is titled `My Title` |
| Title.MyNoteExample | scripts/migrate_markdown.py:53-56 | the stem `my_note` gives the fallback title `My Note` |
| Title.TitleCaseFrom | scripts/migrate_markdown.py:56 | `str.title`: a letter after a letter is lowered, any other letter is raised, other characters are kept, and the length is kept |
| Title.TitleCaseIdempotent | scripts/migrate_markdown.py:56 | title-casing twice gives the same result as title-casing once |
| Title.StemTitle | scripts/migrate_markdown.py:55-56 | the fallback title has the stem's length, and every `_` and `-` of the stem has become a space |
| Title.TitleOneLine | scripts/migrate_markdown.py:44-58 | the title never contains a newline when the stem has none |
| Paths.Name | scripts/migrate_markdown.py:128 | `PurePath.name`: the whole last component, from just after the last `/` to the end, for a path not ending in `/`; empty for an empty path; never holds a `/` |
| Paths.Suffix | scripts/migrate_markdown.py:133 | `PurePath.suffix`: the name from its last `.` on when that dot neither starts nor ends the name, and empty otherwise |
| Paths.SuffixExample | scripts/migrate_markdown.py:133 | `img/Photo.PNG` has the suffix `.PNG`, which lower-cased is an accepted image extension |
| Paths.Stem | scripts/migrate_markdown.py:53-54 | `PurePath.stem`: the stem followed by the suffix is the name |
| Paths.Parent | scripts/migrate_markdown.py:204 | `PurePath.parent`: for a path not ending in `/` whose last `/` is past its first character, the parent, a `/` and the name make up the path; a bare name lies in `.` |
| Paths.ParentIgnoresTrailingSlash | scripts/migrate_markdown.py:204 | a trailing `/` does not change the parent, so `x.md/` lies in `.` |
| Strings.Strip | scripts/migrate_markdown.py:49 | `str.strip()`: the result is a slice of the input with only whitespace removed on either side, and it neither starts nor ends with whitespace |
| Slugs.KeepSlugChars | scripts/migrate_markdown.py:168 | keeps only word characters, whitespace and `-`, and loses no word character |
| Slugs.KeepSlugCharsConcat | scripts/migrate_markdown.py:168 | the first substitution is an order-preserving filter: it acts on each part of the text separately |
| Slugs.KeepSlugCharsOne | scripts/migrate_markdown.py:168 | one character is kept exactly when it is a word character, whitespace or `-` |
| Slugs.CollapseFrom | scripts/migrate_markdown.py:169 | no whitespace is left, no two `-` are adjacent, every other character comes from the input, and the word characters are those of the input |
| Slugs.CollapseConcat | scripts/migrate_markdown.py:169 | the second substitution acts on each part of the text separately, given whether the first part ended inside a run |
| Slugs.CollapseRun | scripts/migrate_markdown.py:169 | a non-empty run of whitespace and `-` becomes exactly one `-` (nothing when it continues a run already replaced) |
| Slugs.CollapseChar | scripts/migrate_markdown.py:169 | a character other than whitespace and `-` is copied |
| Slugs.SeparatorRunToHyphen | scripts/migrate_markdown.py:169 | between two other characters, a run of whitespace and `-` becomes exactly one `-` |
| Slugs.Slug | scripts/migrate_markdown.py:168-169 | the slug has only lower-case word characters and `-`, never two `-` in a row, and exactly the word characters of the lower-cased title |
| Slugs.TwoWordSlug | scripts/migrate_markdown.py:168-169 | two lower-case words separated by whitespace give the words joined by one `-`, as `hello world` gives `hello-world` |
| Slugs.SlugIdempotent | scripts/migrate_markdown.py:168-169 | slugging a slug returns it unchanged |
| FrontMatter.Padded | scripts/migrate_markdown.py:170 | `%Y`/`%m` zero padding: the result has the requested width, only digits, and reads back as the number |
| FrontMatter.DateStampRoundTrip | scripts/migrate_markdown.py:174 | the `%Y-%m-%d` stamp of a valid date reads back as that date, so different dates get different stamps |
| FrontMatter.NameParts | scripts/migrate_markdown.py:214-216 | the output name is the date stamp, `-`, the slug and `.md`, with year and month at fixed offsets |
| FrontMatter.NameAndPermalinkAgree | scripts/migrate_markdown.py:168-170 | the permalink `/posts/YYYY/MM/<slug>/` and the output file name carry the same slug, year and month |
| FrontMatter.TagLinesRoundTrip | scripts/migrate_markdown.py:179-182 | the `  - <tag>` lines followed by the closing `---` and blank line read back as exactly the tags, in order, and then the body |
| FrontMatter.HeaderRoundTrip | scripts/migrate_markdown.py:172-184 | a post made of the header and any body reads back as its title, date, permalink and tags, in the fixed field order, followed by the unchanged body |
| ImageScan.MdAt | scripts/migrate_markdown.py:89 | `!\[([^\]]*)\]\(([^)]+)\)` matches at a position exactly when the result is `Some`, and the match is unique |
| ImageScan.SrcAt | scripts/migrate_markdown.py:90 | the `src=["']([^"']+)["'][^>]*>` tail matches at a position exactly when the result is `Some`, and uniquely |
| ImageScan.HtmlAt | scripts/migrate_markdown.py:90 | the `<img>` pattern matches exactly when the result is `Some`, and the path reported is that of the last `src=` any match can use |
| ImageScan.FindAll | scripts/migrate_markdown.py:94 | `re.findall`: each span found is the match at its start, and spans come in text order without overlapping |
| ImageScan.FindAllComplete | scripts/migrate_markdown.py:94 | no match starts at a position that no found span covers |
| Percent.UnquoteEscape | scripts/migrate_markdown.py:103 | decoding undoes percent-encoding: a path whose unsafe ASCII characters are written as `%XX` decodes to the path itself |
| Percent.UnquoteShrinks | scripts/migrate_markdown.py:103 | a path containing a `%XX` escape decodes to something strictly shorter |
| Resolver.FindImageFile | scripts/migrate_markdown.py:122-136 | the result is one of the four candidates and qualifies (exists, image extension), and it is `None` exactly when no candidate qualifies |
| Resolver.FindImageFileFirst | scripts/migrate_markdown.py:132-134 | the candidate returned is the first that qualifies: every earlier one fails |
| Resolver.FourthCandidateRedundant | scripts/migrate_markdown.py:125-134 | with an absolute working directory, the fourth candidate qualifies only when the first does, so it is never the one returned unless it is the first |
| Resolver.Prefix8 | scripts/migrate_markdown.py:142 | `hexdigest()[:8]` is a prefix of the digest of length min(8, length) |
| Resolver.Put | scripts/migrate_markdown.py:118 | dict assignment: keys stay distinct; an existing key keeps its position and takes the new value while every other entry stays where and as it was; a new key is appended at the end |
| Resolver.Visit | scripts/migrate_markdown.py:102-118 | one loop turn records the decoded path exactly when it is not remote and resolves, mapped to `/images/` plus its store name; every entry already present keeps its position, and only an entry for that path changes; a new path is appended at the end |
| Resolver.VisitAll | scripts/migrate_markdown.py:95-118 | the loop only appends: the entries already present keep their positions and keys, and at most one entry is added per reference |
| Resolver.VisitAllKeys | scripts/migrate_markdown.py:95-118 | after the loop a key is present exactly when it was before or some reference decodes to it and resolves |
| Resolver.VisitAllWellFormed | scripts/migrate_markdown.py:95-118 | the loop keeps every entry local, resolved and mapped to the store path of its file |
| Resolver.FindAndCopyImagesSpec | scripts/migrate_markdown.py:83-120 | the mapping's keys are exactly the decoded paths of the references that resolve to a local image; none is remote; each maps to the store path of its file |
| Resolver.CopiedImagesReadable | scripts/migrate_markdown.py:110-118 | when the loop does not raise, every image in the mapping could be read for hashing, was not already its own store copy, and the store took it |
| Resolver.SameContentSameUrl | scripts/migrate_markdown.py:138-145 | two keys whose files have the same bytes and suffix share one store path |
| Rewrite.MdRewriteAt | scripts/migrate_markdown.py:151-155 | the markdown rewrite pattern for a key matches at a position exactly when the result is `Some`, and uniquely |
| Rewrite.HtmlRewriteAt | scripts/migrate_markdown.py:157-161 | the html rewrite pattern for a key matches exactly when the result is `Some`, at the last `src=` any match can use |
| Rewrite.SubFirstMatch | scripts/migrate_markdown.py:151-161 | `re.sub` copies the text up to the first match, replaces it, and continues after it |
| Rewrite.SubUnchanged | scripts/migrate_markdown.py:151-161 | where the pattern matches nowhere, the substitution returns the text unchanged |
| Rewrite.MdSelfRewrite | scripts/migrate_markdown.py:151-155 | rewriting a path to itself leaves the text unchanged |
| Rewrite.MdRewriteMatchesScan | scripts/migrate_markdown.py:151-155 | for a non-empty key without `)`, the rewrite fires at a position exactly when the scanner finds a reference there whose path is the key |
| Rewrite.MdRewriteKeepsAlt | scripts/migrate_markdown.py:151-155 | at a scanned reference with path `old`, the replacement is `![alt](new)` with the same alt text, and it ends where the reference ends |
| Rewrite.HtmlRewriteMatchesScan | scripts/migrate_markdown.py:157-161 | for a key without quotes, the rewrite picks the same `src=` and the same closing `>` as the scanner |
| Rewrite.HtmlRewriteKeepsAttributes | scripts/migrate_markdown.py:157-161 | at a scanned `<img>` with path `old`, the replacement keeps the attributes before and after `src` and writes `src="new"` |
| Rewrite.EscapedReferenceNotRewritten | scripts/migrate_markdown.py:149-161 | at a markdown reference whose path has a `%XX` escape, neither rewrite pattern built from the decoded path (the key the mapping holds) matches there |
| Rewrite.EscapedHtmlReferenceNotRewritten | scripts/migrate_markdown.py:157-161 | at an `<img` reference whose path has a `%XX` escape, the html rewrite pattern for the decoded path cannot match at that reference's own `src=` |
| Rewrite.RemoteReferenceKept | scripts/migrate_markdown.py:105-107 | a markdown reference to an `http://` or `https://` path can be rewritten only by a key that is itself remote, and the skip on line 106 keeps such keys out of the mapping |
| Rewrite.UpdateUnchanged | scripts/migrate_markdown.py:147-163 | an empty mapping, or one whose keys match nowhere, leaves the content unchanged |
| Rewrite.UpdateSequential | scripts/migrate_markdown.py:147-163 | the entries are applied one after another in insertion order: updating with `m1 + m2` is updating with `m1` and then with `m2` |
| Rewrite.IdleEntrySkipped | scripts/migrate_markdown.py:147-163 | an entry whose two patterns match nowhere in the text as it stands at its turn changes nothing, whatever the entries before and after it |
| RewriteExamples.CaptionExample | scripts/migrate_markdown.py:147-163 | `![caption](old.png)` with `old.png` mapped to `/images/abcd1234.png` becomes `![caption](/images/abcd1234.png)` |
| RewriteExamples.EscapedExample | scripts/migrate_markdown.py:147-163 | `![a](my%20pic.png)` with the decoded key `my pic.png` stays as it is |
| RewriteExamples.HtmlPassUnchanged | scripts/migrate_markdown.py:157-161 | the html pass leaves text without `<` unchanged |
| Tags.BlankMarkup | scripts/migrate_markdown.py:63 | every `#*`[]()` character becomes a space, every other character is kept, and the length is kept |
| Tags.MarkupAt | scripts/migrate_markdown.py:64-69 | a link, code-fence or inline-code match starts at `[` or a backquote, and an image match has `[` second |
| Tags.CleanIsBlank | scripts/migrate_markdown.py:63-69 | the substitutions on lines 64 to 69 change nothing: the cleaned text is the blanked text |
| Tags.LongOnly | scripts/migrate_markdown.py:75 | exactly the keywords longer than one character are kept |
| Tags.LongOnlyConcat | scripts/migrate_markdown.py:75 | the filter keeps the keywords in order: it acts on each part of the list separately |
| Tags.LongOnlyOne | scripts/migrate_markdown.py:75 | one keyword is kept exactly when it is longer than one character |
| Tags.SegmenterTags | scripts/migrate_markdown.py:72-76 | with the segmenter working, the tags are the first `max_tags` (or all) of its keywords longer than one character, in its order |
| Tags.TokenAt | scripts/migrate_markdown.py:79 | `\b[a-zA-Z]{3,}\b` matches at a position exactly when the result is `Some`: a whole word of three or more letters |
| Tags.TokenSpansComplete | scripts/migrate_markdown.py:79 | `re.findall` misses no word |
| Tags.WordsAreLetters | scripts/migrate_markdown.py:79 | every word found has at least three letters, all lower-case after `lower()` |
| Tags.CountIsMultiplicity | scripts/migrate_markdown.py:80 | the count kept for a word is its number of occurrences |
| Tags.Uniq | scripts/migrate_markdown.py:80 | the `Counter` keys are distinct and are exactly the words |
| Tags.FirstMax | scripts/migrate_markdown.py:81 | the candidate chosen has the highest count, and every earlier one has a strictly lower count |
| Tags.SelectRanked | scripts/migrate_markdown.py:81 | repeated selection of the most frequent remaining word yields words in non-increasing order of count |
| Tags.SelectDominates | scripts/migrate_markdown.py:81 | no candidate the selection leaves out has a higher count than the last word it took |
| Tags.MostCommonRanked | scripts/migrate_markdown.py:80-81 | `most_common(n)` comes highest count first, and no word left out occurs more often than the last one taken |
| Tags.ExtractTags | scripts/migrate_markdown.py:60-81 | never more than `max_tags` tags |
| Tags.FallbackTags | scripts/migrate_markdown.py:77-81 | when the segmenter fails, the tags are distinct lower-case words of three or more letters from the blanked text, `max_tags` of them or all when fewer, ranked by count, with nothing left out more frequent than the last tag |
| Pipeline.Discover | scripts/migrate_markdown.py:241-245 | a single file is taken exactly when its lower-cased suffix is `.md` or `.markdown`; a directory yields exactly the walk entries named `*.md` or `*.markdown`; anything else yields nothing |
| Pipeline.DiscoverDistinct | scripts/migrate_markdown.py:245 | each note in a directory is listed once |
| Pipeline.ProcessMarkdownFile | scripts/migrate_markdown.py:186-235 | a note is written exactly when it can be read, its date is valid, every image it references that resolves can be read, is not already its own store copy and can be copied into the store, and its output can be written; every other case is a failure |
| Pipeline.OwnStoreCopyFails | scripts/migrate_markdown.py:110-117 | a note referencing an image that already is its own store copy (the same content-hash name in the store) fails, as `shutil.copy2` refuses to copy a file onto itself |
| Pipeline.WrittenPostReadsBack | scripts/migrate_markdown.py:196-221 | when a note is written (its images resolved beside its own path, none failing to copy), the written file is named after the date stamp and slug; its header reads back as the title, date, permalink and tags; its body is the note with its references rewritten |
| Pipeline.TagsOneLine | scripts/migrate_markdown.py:197 | tags never span lines when the segmenter's keywords do not |
| Pipeline.Successes | scripts/migrate_markdown.py:254-257 | the success count is at most the number of notes, and equal to it exactly when every note was written |
| Pipeline.SuccessesConcat | scripts/migrate_markdown.py:254-257 | the count adds up over consecutive stretches of the loop |
| Pipeline.SuccessesOne | scripts/migrate_markdown.py:256-257 | one note adds one exactly when it was written |
| Pipeline.OneOfTwoSucceeds | scripts/migrate_markdown.py:254-259 | a written note followed by a failed one reports `1/2` |
| Pipeline.ProcessDirectory | scripts/migrate_markdown.py:247-259 | "no markdown files" exactly when discovery finds none; otherwise the total is the number found and the success count is the number of discovered notes, each processed at its own path, that were written |

## Left out

- Unicode: `\w`, `\s`, `\b`, `str.lower`, `str.upper`, `str.title` and `str.isspace` are modelled on ASCII only (whitespace is U+0009 to U+000D, U+001C to U+001F and space). Python applies them to all of Unicode.
- `jieba` keyword extraction and its initialisation (lines 42 and 73) are foreign code. They are a parameter that returns the keywords or fails; `topK` is not passed to it.
- MD5 (line 142) is an uninterpreted function from bytes to a string.
- File-system effects are not modelled. Reading a note is an optional text, writing is a boolean, and `mkdir` and `shutil.copy2` (lines 38-39, 117) have no modelled effect. What is modelled is whether hashing or copying an image raises: an unreadable image, a store that takes no new files, or an image that already is its own store copy. Whether two paths name the same file is decided on their text, without following links or normalising `..`; images copied before a failing one stay in the store in the source, which the model does not track.
- `rglob` order: a directory is given as the list of paths a recursive walk visits. The model does not fix that order.
- `Path.exists` is membership of the path, joined to the working directory, in a map. Paths are joined as text: `.`, `..`, repeated `/` and symbolic links are not normalised, and a directory of `/` joins as `//name`.
- `datetime.fromtimestamp` and the local time zone are not modelled. The modification date is given as `(year, month, day)`, with years 1 to 9999 as `datetime` allows.
- `FrontMatter.Padded`: years below 1000 are padded to four digits. The platform's `%Y` may print them without padding.
- `Percent.Unquote`: decodes each `%XX` to the character with that code. It does not combine multi-byte UTF-8 sequences or substitute invalid ones.
- `Tags.MostCommonRanked`: states the ranking by count but not the order among equal counts. The selection keeps first-occurrence order for ties, as `Counter.most_common` does.
- `Tags.ExtractTags`: its own contract states only the bound. The content of each branch is stated by `Tags.SegmenterTags` and `Tags.FallbackTags`.
- `Resolver.FourthCandidateRedundant`: holds only for an absolute working directory, which `Path.cwd()` always is.
- `Rewrite.RemoteReferenceKept`: stated for markdown references only. The html case is not stated.
- `re.sub` replacement templates: backslashes in the replacement path (lines 153 and 159) are not interpreted. Store paths are `/images/` plus hexadecimal digits and a suffix.
- The `print` reporting, `argparse` and `main` (lines 188, 223-229, 234, 248-252, 259, 262-276) produce output only.
- The constructor's directory setup (lines 21-42) is not modelled beyond the image store's location, which is a field of the file system. The output directory does not take part in any computed value.

=== FILE: chars.dfy ===
/** ASCII character classes standing in for Python's `\w`, `\s`, `str.lower`,
    `str.upper` and the notion of a "cased" character used by `str.title`. */
module Chars {

  predicate IsUpper(c: char) { 'A' <= c <= 'Z' }

  predicate IsLower(c: char) { 'a' <= c <= 'z' }

  /** `[a-zA-Z]`; also the cased characters of the ASCII model. */
  predicate IsLetter(c: char) { IsUpper(c) || IsLower(c) }

  predicate IsDigit(c: char) { '0' <= c <= '9' }

  /** `\w` restricted to ASCII. */
  predicate IsWordChar(c: char) { IsLetter(c) || IsDigit(c) || c == '_' }

  /** `\s` and `str.isspace` restricted to ASCII: `\t`, `\n`, `\v`, `\f`,
      `\r` (U+0009 to U+000D), the separators U+001C to U+001F, and space. */
  predicate IsSpace(c: char) {
    '\t' <= c <= '\r' || '\U{1C}' <= c <= ' '
  }

  predicate IsHexDigit(c: char) { IsDigit(c) || 'a' <= c <= 'f' || 'A' <= c <= 'F' }

  function HexValue(c: char): (v: nat)
    requires IsHexDigit(c)
    ensures v < 16
  {
    if IsDigit(c) then c as int - '0' as int
    else if 'a' <= c <= 'f' then c as int - 'a' as int + 10
    else c as int - 'A' as int + 10
  }

  /** Upper-case hexadecimal digit of `v`. */
  function HexChar(v: nat): (c: char)
    requires v < 16
    ensures IsHexDigit(c) && HexValue(c) == v
  {
    if v < 10 then ('0' as int + v) as char else ('A' as int + v - 10) as char
  }

  function Lower(c: char): (r: char)
    ensures !IsUpper(r)
    ensures IsLetter(c) <==> IsLetter(r)
    ensures IsWordChar(c) <==> IsWordChar(r)
    ensures IsSpace(c) <==> IsSpace(r)
    ensures !IsUpper(c) ==> r == c
    ensures IsUpper(c) ==> r as int == c as int + 32
  {
    if IsUpper(c) then (c as int + 32) as char else c
  }

  function Upper(c: char): (r: char)
    ensures !IsLower(r)
    ensures IsLetter(c) <==> IsLetter(r)
    ensures !IsLower(c) ==> r == c
    ensures IsLower(c) ==> r as int == c as int - 32
  {
    if IsLower(c) then (c as int - 32) as char else c
  }

  /** `str.lower` on the ASCII model: position by position. */
  function LowerStr(s: string): (r: string)
    ensures |r| == |s|
    ensures forall i :: 0 <= i < |s| ==> r[i] == Lower(s[i])
  {
    seq(|s|, i requires 0 <= i < |s| => Lower(s[i]))
  }
}

=== FILE: frontmatter.dfy ===
/** `generate_jekyll_front_matter` and the output file name of
    `process_markdown_file`, with a parser that reads a post back. */
module FrontMatter {
  import opened Chars
  import opened Strings
  import opened Slugs

  /** A calendar date as `datetime` holds it. */
  datatype Date = Date(year: nat, month: nat, day: nat)

  predicate IsLeap(y: nat) { (y % 4 == 0 && y % 100 != 0) || y % 400 == 0 }

  function DaysInMonth(y: nat, m: nat): nat
    requires 1 <= m <= 12
  {
    if m == 2 then (if IsLeap(y) then 29 else 28)
    else if m == 4 || m == 6 || m == 9 || m == 11 then 30
    else 31
  }

  /** The range `datetime` accepts. */
  predicate ValidDate(d: Date) {
    1 <= d.year <= 9999 && 1 <= d.month <= 12 && 1 <= d.day <= DaysInMonth(d.year, d.month)
  }

  function Pow10(n: nat): (r: nat)
    ensures r >= 1
  {
    if n == 0 then 1 else 10 * Pow10(n - 1)
  }

  lemma Pow10Values()
    ensures Pow10(2) == 100 && Pow10(4) == 10000
  {
    assert Pow10(1) == 10;
    assert Pow10(3) == 1000;
  }

  predicate AllDigits(s: string) {
    forall i :: 0 <= i < |s| ==> IsDigit(s[i])
  }

  /** The value of a string of decimal digits. */
  function DecimalValue(s: string): (v: nat)
    requires AllDigits(s)
    ensures v < Pow10(|s|)
  {
    if |s| == 0 then 0
    else DecimalValue(s[..|s| - 1]) * 10 + (s[|s| - 1] as int - '0' as int)
  }

  lemma DropLastDigit(n: nat, width: nat)
    requires width > 0 && n < Pow10(width)
    ensures n / 10 < Pow10(width - 1)
  {
    assert Pow10(width) == 10 * Pow10(width - 1);
  }

  /** The digit of value `v`. */
  function Digit(v: nat): (ch: char)
    requires v < 10
    ensures IsDigit(ch) && ch as int - '0' as int == v
  {
    ('0' as int + v) as char
  }

  lemma DecimalValueSnoc(s: string, v: nat)
    requires AllDigits(s) && v < 10
    ensures AllDigits(s + [Digit(v)])
    ensures DecimalValue(s + [Digit(v)]) == DecimalValue(s) * 10 + v
  {
    var t := s + [Digit(v)];
    assert t[..|t| - 1] == s;
  }

  /** `n` in decimal, zero-padded to `width` digits (`%04d`, `%02d`). */
  function Padded(n: nat, width: nat): (r: string)
    requires n < Pow10(width)
    ensures |r| == width
    ensures AllDigits(r)
    ensures DecimalValue(r) == n
  {
    if width == 0 then []
    else
      DropLastDigit(n, width);
      var p := Padded(n / 10, width - 1);
      DecimalValueSnoc(p, n % 10);
      p + [Digit(n % 10)]
  }

  /** `strftime('%Y-%m-%d')`. */
  function DateStamp(d: Date): (r: string)
    requires ValidDate(d)
    ensures |r| == 10 && r[4] == '-' && r[7] == '-'
  {
    Pow10Values();
    var y, m, dd := Padded(d.year, 4), Padded(d.month, 2), Padded(d.day, 2);
    var r := y + "-" + m + "-" + dd;
    assert r[4] == '-' && r[7] == '-';
    r
  }

  /** Reads a `YYYY-MM-DD` stamp back. */
  function ParseDateStamp(s: string): Option<Date> {
    if |s| == 10 && s[4] == '-' && s[7] == '-'
       && AllDigits(s[..4]) && AllDigits(s[5..7]) && AllDigits(s[8..])
    then Some(Date(DecimalValue(s[..4]), DecimalValue(s[5..7]), DecimalValue(s[8..])))
    else None
  }

  /** Different dates get different stamps: the stamp reads back as its date. */
  lemma DateStampRoundTrip(d: Date)
    requires ValidDate(d)
    ensures ParseDateStamp(DateStamp(d)) == Some(d)
  {
    var s := DateStamp(d);
    assert s[..4] == Padded(d.year, 4);
    assert s[5..7] == Padded(d.month, 2);
    assert s[8..] == Padded(d.day, 2);
  }

  /** `/posts/%Y/%m/<slug>/`. */
  function Permalink(title: string, d: Date): string
    requires ValidDate(d)
  {
    "/posts/" + Padded(d.year, 4) + "/" + Padded(d.month, 2) + "/" + Slug(title) + "/"
  }

  /** `%Y-%m-%d-<slug>.md`. */
  function OutputFileName(title: string, d: Date): string
    requires ValidDate(d)
  {
    DateStamp(d) + "-" + Slug(title) + ".md"
  }

  /** The file name and the permalink carry the same slug and the same year
      and month, at fixed offsets. */
  lemma NameAndPermalinkAgree(title: string, d: Date)
    requires ValidDate(d)
    ensures var name := OutputFileName(title, d);
            var link := Permalink(title, d);
            && |name| == |Slug(title)| + 14 && |link| == |Slug(title)| + 16
            && name[11..|name| - 3] == link[15..|link| - 1] == Slug(title)
            && name[..4] == link[7..11] && name[5..7] == link[12..14]
            && StartsWith(name, DateStamp(d)) && EndsWith(name, ".md")
            && StartsWith(link, "/posts/") && EndsWith(link, "/")
  {
    NameParts(title, d);
    LinkParts(title, d);
  }

  lemma NameParts(title: string, d: Date)
    requires ValidDate(d)
    ensures var name := OutputFileName(title, d);
            && |name| == |Slug(title)| + 14 && name[11..|name| - 3] == Slug(title)
            && name[..4] == Padded(d.year, 4) && name[5..7] == Padded(d.month, 2)
            && StartsWith(name, DateStamp(d)) && EndsWith(name, ".md")
  {
    var stamp, slug := DateStamp(d), Slug(title);
    var p2 := stamp + "-" + slug;
    var name := p2 + ".md";
    assert name == OutputFileName(title, d);
    NameStartsWithStamp(stamp, slug);
    NameCarriesSlug(stamp, slug);
    StampParts(d);
    assert name[..4] == stamp[..4] && name[5..7] == stamp[5..7];
    SliceRight(p2, ".md");
  }

  lemma NameStartsWithStamp(stamp: string, slug: string)
    requires |stamp| == 10
    ensures var name := stamp + "-" + slug + ".md";
            name[..10] == stamp && name[..4] == stamp[..4] && name[5..7] == stamp[5..7]
  {
    var name := stamp + "-" + slug + ".md";
    assert forall k :: 0 <= k < 10 ==> name[k] == stamp[k];
  }

  lemma NameCarriesSlug(stamp: string, slug: string)
    requires |stamp| == 10
    ensures var name := stamp + "-" + slug + ".md";
            |name| == |slug| + 14 && name[11..|name| - 3] == slug
  {
    var name := stamp + "-" + slug + ".md";
    assert forall k :: 0 <= k < |slug| ==> name[11 + k] == slug[k];
  }

  /** The year and month digits of a stamp. */
  lemma StampParts(d: Date)
    requires ValidDate(d)
    ensures DateStamp(d)[..4] == Padded(d.year, 4) && DateStamp(d)[5..7] == Padded(d.month, 2)
  {
    Pow10Values();
    var y, m, dd := Padded(d.year, 4), Padded(d.month, 2), Padded(d.day, 2);
    var p1 := y + "-";
    var p2 := p1 + m;
    var p3 := p2 + "-";
    assert DateStamp(d) == p3 + dd;
    SliceLeft(p3, dd, 0, 4);
    SliceLeft(p2, "-", 0, 4);
    SliceLeft(p1, m, 0, 4);
    SliceLeft(y, "-", 0, 4);
    SliceLeft(p3, dd, 5, 7);
    SliceLeft(p2, "-", 5, 7);
    SliceRight(p1, m);
  }

  lemma LinkParts(title: string, d: Date)
    requires ValidDate(d)
    ensures var link := Permalink(title, d);
            && |link| == |Slug(title)| + 16 && link[15..|link| - 1] == Slug(title)
            && link[7..11] == Padded(d.year, 4) && link[12..14] == Padded(d.month, 2)
            && StartsWith(link, "/posts/") && EndsWith(link, "/")
  {
    Pow10Values();
    var y, m, slug := Padded(d.year, 4), Padded(d.month, 2), Slug(title);
    var p1 := "/posts/" + y;
    var p2 := p1 + "/";
    var p3 := p2 + m;
    var p4 := p3 + "/";
    var p5 := p4 + slug;
    var link := p5 + "/";
    assert link == Permalink(title, d);
    SliceLeft(p5, "/", 0, 7);
    SliceLeft(p4, slug, 0, 7);
    SliceLeft(p3, "/", 0, 7);
    SliceLeft(p2, m, 0, 7);
    SliceLeft(p1, "/", 0, 7);
    SliceLeft("/posts/", y, 0, 7);
    SliceLeft(p5, "/", 7, 11);
    SliceLeft(p4, slug, 7, 11);
    SliceLeft(p3, "/", 7, 11);
    SliceLeft(p2, m, 7, 11);
    SliceLeft(p1, "/", 7, 11);
    SliceRight("/posts/", y);
    SliceLeft(p5, "/", 12, 14);
    SliceLeft(p4, slug, 12, 14);
    SliceLeft(p3, "/", 12, 14);
    SliceRight(p2, m);
    SliceLeft(p5, "/", 15, |p5|);
    SliceRight(p4, slug);
    SliceRight(p5, "/");
  }

  /** `s` followed by a newline. */
  function Line(s: string): string { s + "\n" }

  predicate OneLine(s: string) { '\n' !in s }

  lemma Assoc(a: string, b: string, c: string)
    ensures (a + b) + c == a + (b + c)
  {
  }

  /** One `  - <tag>` line per tag, in order. */
  function TagLines(tags: seq<string>): string {
    if |tags| == 0 then "" else Line("  - " + tags[0]) + TagLines(tags[1..])
  }

  function TitleLine(title: string): string { "title: '" + title + "'" }

  function DateLine(d: Date): string
    requires ValidDate(d)
  {
    "date: " + DateStamp(d)
  }

  function PermalinkLine(title: string, d: Date): string
    requires ValidDate(d)
  {
    "permalink: " + Permalink(title, d)
  }

  /** The front matter block: `---`, the title, date, permalink and `tags:`
      lines, the tag lines, a closing `---` and a blank line. */
  function Header(title: string, d: Date, tags: seq<string>): string
    requires ValidDate(d)
  {
    Line("---") + (Line(TitleLine(title)) + (Line(DateLine(d)) + (Line(PermalinkLine(title, d))
    + (Line("tags:") + (TagLines(tags) + (Line("---") + Line("")))))))
  }

  /** What a reader of a post finds in its header, and the body after it. */
  datatype Post = Post(title: string, date: Date, permalink: string, tags: seq<string>, body: string)

  datatype Split = Split(line: string, rest: string)

  /** The text up to the first newline and the text after it. */
  function TakeLine(s: string): (r: Option<Split>)
    ensures r.Some? ==> |r.value.rest| < |s| && OneLine(r.value.line)
    ensures r.Some? ==> s == Line(r.value.line) + r.value.rest
    ensures r.None? <==> OneLine(s)
  {
    var k := Find(s, '\n', 0);
    if k == |s| then None
    else
      assert s == s[..k] + "\n" + s[k + 1..];
      Some(Split(s[..k], s[k + 1..]))
  }

  lemma TakeLineOf(line: string, rest: string)
    requires OneLine(line)
    ensures TakeLine(Line(line) + rest) == Some(Split(line, rest))
  {
    var s := Line(line) + rest;
    var k := Find(s, '\n', 0);
    assert s[|line|] == '\n';
    assert forall i :: 0 <= i < |line| ==> s[i] == line[i];
    assert k == |line|;
    assert s[..k] == line;
    assert s[k + 1..] == rest;
  }

  /** The value after `key` on a line that starts with it. */
  function Field(line: string, key: string): Option<string> {
    if StartsWith(line, key) then Some(line[|key|..]) else None
  }

  lemma FieldOf(key: string, v: string)
    ensures Field(key + v, key) == Some(v)
  {
    StartsWithConcat(key, v);
  }

  function ParseTitleLine(line: string): Option<string> {
    var v :- Field(line, "title: '");
    if |v| > 0 && v[|v| - 1] == '\'' then Some(v[..|v| - 1]) else None
  }

  /** Tag lines up to the closing `---` and the blank line, then the body. */
  function ParseTags(s: string): Option<(seq<string>, string)>
    decreases |s|
  {
    var l :- TakeLine(s);
    if StartsWith(l.line, "  - ") then
      var more :- ParseTags(l.rest);
      Some(([l.line[4..]] + more.0, more.1))
    else if l.line == "---" then
      var blank :- TakeLine(l.rest);
      if blank.line == "" then Some(([], blank.rest)) else None
    else None
  }

  /** Reads a generated post: its header fields and its body. */
  function ParsePost(s: string): Option<Post> {
    var l :- TakeLine(s);
    if l.line != "---" then None else ParseAfterOpen(l.rest)
  }

  function ParseAfterOpen(s: string): Option<Post> {
    var l :- TakeLine(s);
    var title :- ParseTitleLine(l.line);
    ParseAfterTitle(title, l.rest)
  }

  function ParseAfterTitle(title: string, s: string): Option<Post> {
    var l :- TakeLine(s);
    var stamp :- Field(l.line, "date: ");
    var date :- ParseDateStamp(stamp);
    ParseAfterDate(title, date, l.rest)
  }

  function ParseAfterDate(title: string, date: Date, s: string): Option<Post> {
    var l :- TakeLine(s);
    var link :- Field(l.line, "permalink: ");
    ParseAfterPermalink(title, date, link, l.rest)
  }

  function ParseAfterPermalink(title: string, date: Date, link: string, s: string): Option<Post> {
    var l :- TakeLine(s);
    if l.line != "tags:" then None else
    var tb :- ParseTags(l.rest);
    Some(Post(title, date, link, tb.0, tb.1))
  }

  /** The closing `---` and blank line end the tag list. */
  lemma ClosingParses(body: string)
    ensures ParseTags(Line("---") + Line("") + body) == Some(([], body))
  {
    Assoc(Line("---"), Line(""), body);
    TakeLineOf("---", Line("") + body);
    TakeLineOf("", body);
  }

  /** A tag line is read back as its tag, before whatever follows it. */
  lemma TagLineParses(tag: string, rest: string, more: seq<string>, body: string)
    requires OneLine(tag)
    requires ParseTags(rest) == Some((more, body))
    ensures ParseTags(Line("  - " + tag) + rest) == Some(([tag] + more, body))
  {
    var line := "  - " + tag;
    assert OneLine(line);
    TakeLineOf(line, rest);
    StartsWithConcat("  - ", tag);
    assert line[4..] == tag;
  }

  /** One more tag line in front of a list that reads back reads back too. */
  lemma TagLinesStep(tags: seq<string>, tail: string, body: string)
    requires |tags| > 0 && OneLine(tags[0])
    requires ParseTags(TagLines(tags[1..]) + tail) == Some((tags[1..], body))
    ensures ParseTags(TagLines(tags) + tail) == Some((tags, body))
  {
    var more := tags[1..];
    var first := Line("  - " + tags[0]);
    assert TagLines(tags) == first + TagLines(more);
    Assoc(first, TagLines(more), tail);
    TagLineParses(tags[0], TagLines(more) + tail, more, body);
    assert [tags[0]] + more == tags;
  }

  lemma {:induction false} TagLinesRoundTrip(tags: seq<string>, body: string)
    requires forall i :: 0 <= i < |tags| ==> OneLine(tags[i])
    ensures ParseTags(TagLines(tags) + (Line("---") + Line("") + body)) == Some((tags, body))
    decreases |tags|
  {
    var tail := Line("---") + Line("") + body;
    if |tags| == 0 {
      assert TagLines(tags) + tail == tail;
      ClosingParses(body);
    } else {
      TagLinesRoundTrip(tags[1..], body);
      TagLinesStep(tags, tail, body);
    }
  }

  lemma OneLineConcat(a: string, b: string)
    requires OneLine(a) && OneLine(b)
    ensures OneLine(a + b)
  {
    assert forall k :: 0 <= k < |a + b| ==> (a + b)[k] == if k < |a| then a[k] else b[k - |a|];
  }

  /** Digits are never newlines. */
  lemma DigitsOneLine(s: string)
    requires AllDigits(s)
    ensures OneLine(s)
  {
    assert forall k :: 0 <= k < |s| ==> s[k] != '\n';
  }

  lemma DateLineOneLine(d: Date)
    requires ValidDate(d)
    ensures OneLine(DateLine(d))
  {
    Pow10Values();
    var y, m, dd := Padded(d.year, 4), Padded(d.month, 2), Padded(d.day, 2);
    DigitsOneLine(y);
    DigitsOneLine(m);
    DigitsOneLine(dd);
    OneLineConcat("date: ", y);
    OneLineConcat("date: " + y, "-");
    OneLineConcat("date: " + y + "-", m);
    OneLineConcat("date: " + y + "-" + m, "-");
    OneLineConcat("date: " + y + "-" + m + "-", dd);
    assert DateStamp(d) == y + "-" + m + "-" + dd;
    assert DateLine(d) == "date: " + y + "-" + m + "-" + dd;
  }

  lemma LinkPathOneLine(y: string, m: string, slug: string)
    requires OneLine(y) && OneLine(m) && OneLine(slug)
    ensures OneLine("/posts/" + y + "/" + m + "/" + slug + "/")
  {
    var p1 := "/posts/";
    OneLineConcat(p1, y);
    OneLineConcat(p1 + y, "/");
    OneLineConcat(p1 + y + "/", m);
    OneLineConcat(p1 + y + "/" + m, "/");
    OneLineConcat(p1 + y + "/" + m + "/", slug);
    OneLineConcat(p1 + y + "/" + m + "/" + slug, "/");
  }

  lemma SlugOneLine(title: string)
    ensures OneLine(Slug(title))
  {
    var slug := Slug(title);
    assert forall k :: 0 <= k < |slug| ==> !IsSpace(slug[k]);
  }

  lemma PermalinkLineOneLine(title: string, d: Date)
    requires ValidDate(d)
    ensures OneLine(PermalinkLine(title, d))
  {
    Pow10Values();
    DigitsOneLine(Padded(d.year, 4));
    DigitsOneLine(Padded(d.month, 2));
    SlugOneLine(title);
    LinkPathOneLine(Padded(d.year, 4), Padded(d.month, 2), Slug(title));
    OneLineConcat("permalink: ", Permalink(title, d));
  }

  /** The header, followed by `rest`, as right-nested lines. */
  lemma HeaderThen(title: string, d: Date, tags: seq<string>, body: string)
    requires ValidDate(d)
    ensures Header(title, d, tags) + body
            == Line("---") + (Line(TitleLine(title)) + (Line(DateLine(d)) + (Line(PermalinkLine(title, d))
               + (Line("tags:") + (TagLines(tags) + (Line("---") + Line("") + body))))))
  {
    var a := Line("---") + Line("");
    Assoc(TagLines(tags), a, body);
    var b := TagLines(tags) + a;
    Assoc(Line("tags:"), b, body);
    var c := Line("tags:") + b;
    Assoc(Line(PermalinkLine(title, d)), c, body);
    var e := Line(PermalinkLine(title, d)) + c;
    Assoc(Line(DateLine(d)), e, body);
    var g := Line(DateLine(d)) + e;
    Assoc(Line(TitleLine(title)), g, body);
    var h := Line(TitleLine(title)) + g;
    Assoc(Line("---"), h, body);
  }

  lemma AfterPermalinkOf(title: string, d: Date, link: string, tags: seq<string>, body: string)
    requires ValidDate(d)
    requires forall i :: 0 <= i < |tags| ==> OneLine(tags[i])
    ensures ParseAfterPermalink(title, d, link, Line("tags:") + (TagLines(tags) + (Line("---") + Line("") + body)))
            == Some(Post(title, d, link, tags, body))
  {
    var rest := TagLines(tags) + (Line("---") + Line("") + body);
    TagLinesRoundTrip(tags, body);
    TagsHeadingOf(rest);
  }

  lemma TagsHeadingOf(rest: string)
    ensures TakeLine(Line("tags:") + rest) == Some(Split("tags:", rest))
  {
    assert OneLine("tags:");
    TakeLineOf("tags:", rest);
  }

  lemma AfterDateOf(title: string, d: Date, rest: string, p: Post)
    requires ValidDate(d)
    requires ParseAfterPermalink(title, d, Permalink(title, d), rest) == Some(p)
    ensures ParseAfterDate(title, d, Line(PermalinkLine(title, d)) + rest) == Some(p)
  {
    PermalinkLineOneLine(title, d);
    var s := Line(PermalinkLine(title, d)) + rest;
    TakeLineOf(PermalinkLine(title, d), rest);
    assert TakeLine(s) == Some(Split(PermalinkLine(title, d), rest));
    FieldOf("permalink: ", Permalink(title, d));
    assert Field(PermalinkLine(title, d), "permalink: ") == Some(Permalink(title, d));
  }

  lemma AfterTitleOf(title: string, d: Date, rest: string, p: Post)
    requires ValidDate(d)
    requires ParseAfterDate(title, d, rest) == Some(p)
    ensures ParseAfterTitle(title, Line(DateLine(d)) + rest) == Some(p)
  {
    DateLineOneLine(d);
    TakeLineOf(DateLine(d), rest);
    FieldOf("date: ", DateStamp(d));
    DateStampRoundTrip(d);
  }

  /** The title line is one line and reads back as the title. */
  lemma TitleLineParses(title: string)
    requires OneLine(title)
    ensures OneLine(TitleLine(title))
    ensures ParseTitleLine(TitleLine(title)) == Some(title)
  {
    Assoc("title: '", title, "'");
    FieldOf("title: '", title + "'");
    var v := title + "'";
    assert v[..|v| - 1] == title;
  }

  lemma AfterOpenOf(title: string, rest: string, p: Post)
    requires OneLine(title)
    requires ParseAfterTitle(title, rest) == Some(p)
    ensures ParseAfterOpen(Line(TitleLine(title)) + rest) == Some(p)
  {
    TitleLineParses(title);
    TakeLineOf(TitleLine(title), rest);
  }

  lemma EndsWithExtend(a: string, x: string, t: string)
    requires EndsWith(x, t)
    ensures EndsWith(a + x, t)
  {
    assert (a + x)[|a + x| - |t|..] == x[|x| - |t|..];
  }

  /** The header opens with `---` and closes with `---` and a blank line. */
  lemma HeaderFrame(title: string, d: Date, tags: seq<string>)
    requires ValidDate(d)
    ensures StartsWith(Header(title, d, tags), "---\n")
    ensures EndsWith(Header(title, d, tags), "---\n\n")
  {
    var tail := Line("---") + Line("");
    assert tail == "---\n\n";
    assert EndsWith(tail, tail);
    var x1 := TagLines(tags) + tail;
    EndsWithExtend(TagLines(tags), tail, tail);
    var x2 := Line("tags:") + x1;
    EndsWithExtend(Line("tags:"), x1, tail);
    var x3 := Line(PermalinkLine(title, d)) + x2;
    EndsWithExtend(Line(PermalinkLine(title, d)), x2, tail);
    var x4 := Line(DateLine(d)) + x3;
    EndsWithExtend(Line(DateLine(d)), x3, tail);
    var x5 := Line(TitleLine(title)) + x4;
    EndsWithExtend(Line(TitleLine(title)), x4, tail);
    EndsWithExtend(Line("---"), x5, tail);
    assert Header(title, d, tags) == Line("---") + x5;
    StartsWithConcat(Line("---"), x5);
  }

  /** A generated post reads back as the title, date, permalink and tags it
      was built from, followed by the unchanged body. */
  lemma HeaderRoundTrip(title: string, d: Date, tags: seq<string>, body: string)
    requires ValidDate(d)
    requires OneLine(title)
    requires forall i :: 0 <= i < |tags| ==> OneLine(tags[i])
    ensures ParsePost(Header(title, d, tags) + body)
            == Some(Post(title, d, Permalink(title, d), tags, body))
  {
    var p := Post(title, d, Permalink(title, d), tags, body);
    var r3 := Line("tags:") + (TagLines(tags) + (Line("---") + Line("") + body));
    var r2 := Line(PermalinkLine(title, d)) + r3;
    var r1 := Line(DateLine(d)) + r2;
    var r0 := Line(TitleLine(title)) + r1;
    assert Header(title, d, tags) + body == Line("---") + r0 by {
      HeaderThen(title, d, tags, body);
    }
    assert ParseAfterOpen(r0) == Some(p) by {
      AfterPermalinkOf(title, d, Permalink(title, d), tags, body);
      AfterDateOf(title, d, r3, p);
      AfterTitleOf(title, d, r2, p);
      AfterOpenOf(title, r1, p);
    }
    assert TakeLine(Line("---") + r0) == Some(Split("---", r0)) by {
      TakeLineOf("---", r0);
    }
  }
}

=== FILE: imagescan.dfy ===
/** The two reference patterns of `find_and_copy_images` and `re.findall`
    over them:
      markdown  `!\[([^\]]*)\]\(([^)]+)\)`
      html      `<img[^>]+src=["\']([^"\']+)["\'][^>]*>`                    */
module ImageScan {
  import opened Chars
  import opened Strings

  predicate IsQuote(ch: char) { ch == '"' || ch == '\'' }

  /** The markdown pattern matches at `i` with its `]` at `j` and its closing
      `)` at `k`: the alt text is `c[i+2..j]`, the path `c[j+2..k]`. */
  predicate MdShape(c: string, i: nat, j: nat, k: nat) {
    && i + 2 <= j && j + 2 < k < |c|
    && c[i] == '!' && c[i + 1] == '[' && NoneOf(c, i + 2, j, ']') && c[j] == ']'
    && c[j + 1] == '(' && NoneOf(c, j + 2, k, ')') && c[k] == ')'
  }

  /** The part of the html pattern from `src=` on, with `src=` at `a`, the
      closing quote at `q` and the closing `>` at `g`. */
  predicate SrcShape(c: string, a: nat, q: nat, g: nat) {
    && a + 5 < q < g < |c|
    && c[a..a + 4] == "src=" && IsQuote(c[a + 4])
    && (forall k :: a + 5 <= k < q ==> !IsQuote(c[k])) && IsQuote(c[q])
    && NoneOf(c, q + 1, g, '>') && c[g] == '>'
  }

  /** The html pattern matches at `i`: `<img`, a non-empty run without `>`,
      then `src=` at `a`. The path is `c[a+5..q]`. */
  predicate HtmlShape(c: string, i: nat, a: nat, q: nat, g: nat) {
    && i + 5 <= a && a <= |c|
    && i + 4 <= |c| && c[i..i + 4] == "<img" && NoneOf(c, i + 4, a, '>')
    && SrcShape(c, a, q, g)
  }

  datatype Kind = Markdown | Html

  /** A match: the text `c[start..end]`, whose path group is `c[pathStart..pathEnd]`. */
  datatype Span = Span(start: nat, end: nat, pathStart: nat, pathEnd: nat)

  predicate IsMdSpan(c: string, s: Span) {
    s.pathStart >= s.start + 4 && MdShape(c, s.start, s.pathStart - 2, s.pathEnd) && s.end == s.pathEnd + 1
  }

  predicate IsHtmlSpan(c: string, s: Span) {
    s.pathStart >= s.start + 10 && s.end >= 1
    && HtmlShape(c, s.start, s.pathStart - 5, s.pathEnd, s.end - 1)
  }

  /** Index of the first quote of either kind at or after `from`, or `|c|`. */
  function FindQuote(c: string, from: nat): (r: nat)
    requires from <= |c|
    ensures from <= r <= |c|
    ensures r < |c| ==> IsQuote(c[r])
    ensures forall k :: from <= k < r ==> !IsQuote(c[k])
    decreases |c| - from
  {
    if from == |c| || IsQuote(c[from]) then from else FindQuote(c, from + 1)
  }

  /** The markdown match at `i`, if any. `[^\]]*` and `[^)]+` are each
      followed by the one character they exclude, so the match is unique. */
  function MdAt(c: string, i: nat): (r: Option<Span>)
    ensures r.Some? ==> r.value.start == i && IsMdSpan(c, r.value)
    ensures r.Some? ==> forall j: nat, k: nat :: MdShape(c, i, j, k) ==> j + 2 == r.value.pathStart && k == r.value.pathEnd
    ensures r.None? ==> forall j: nat, k: nat :: !MdShape(c, i, j, k)
  {
    if i + 2 <= |c| && c[i] == '!' && c[i + 1] == '[' then
      var j := Find(c, ']', i + 2);
      if j + 1 < |c| && c[j + 1] == '(' then
        var k := Find(c, ')', j + 2);
        if j + 2 < k < |c| then Some(Span(i, k + 1, j + 2, k)) else None
      else None
    else None
  }

  /** The `src=...>` tail starting at `a`, if any; unique for a given `a`. */
  function SrcAt(c: string, a: nat): (r: Option<(nat, nat)>)
    ensures r.Some? ==> SrcShape(c, a, r.value.0, r.value.1)
    ensures r.Some? ==> forall q: nat, g: nat :: SrcShape(c, a, q, g) ==> q == r.value.0 && g == r.value.1
    ensures r.None? ==> forall q: nat, g: nat :: !SrcShape(c, a, q, g)
  {
    if a + 5 <= |c| && c[a..a + 4] == "src=" && IsQuote(c[a + 4]) then
      var q := FindQuote(c, a + 5);
      if a + 5 < q < |c| then
        var g := Find(c, '>', q + 1);
        if g < |c| then Some((q, g)) else None
      else None
    else None
  }

  /** The largest `a` in `[lo, hi]` at which a `src=...>` tail starts. */
  function LastSrc(c: string, lo: nat, hi: nat): (r: Option<nat>)
    ensures r.Some? ==> lo <= r.value <= hi && SrcAt(c, r.value).Some?
    ensures r.Some? ==> forall a :: r.value < a <= hi ==> SrcAt(c, a).None?
    ensures r.None? ==> forall a :: lo <= a <= hi ==> SrcAt(c, a).None?
    decreases hi
  {
    if hi < lo then None
    else if SrcAt(c, hi).Some? then Some(hi)
    else if hi == 0 then None
    else
      var r := LastSrc(c, lo, hi - 1);
      assert SrcAt(c, hi).None?;
      r
  }

  /** `[^>]+` cannot run past the first `>`, so every `src=` of a match lies
      at or before it. */
  lemma ShapesBelowFirstGt(c: string, i: nat)
    requires i + 4 <= |c|
    ensures forall a: nat, q: nat, g: nat :: HtmlShape(c, i, a, q, g) ==>
              a <= Find(c, '>', i + 4) && SrcAt(c, a).Some?
  {
    var gt := Find(c, '>', i + 4);
    assert gt < |c| ==> c[gt] == '>';
    forall a: nat, q: nat, g: nat | HtmlShape(c, i, a, q, g)
      ensures a <= gt && SrcAt(c, a).Some?
    {
    }
  }

  /** Dropping the first span keeps a position uncovered, and an uncovered
      position lies outside the first span. */
  lemma UncoveredTail(s: Span, rest: seq<Span>)
    ensures forall p: nat :: Uncovered([s] + rest, p) ==> Uncovered(rest, p) && !(s.start <= p < s.end)
  {
    forall p: nat | Uncovered([s] + rest, p)
      ensures Uncovered(rest, p) && !(s.start <= p < s.end)
    {
      assert ([s] + rest)[0] == s;
      forall t | 0 <= t < |rest| ensures !(rest[t].start <= p < rest[t].end) {
        assert ([s] + rest)[t + 1] == rest[t];
      }
    }
  }

  /** The html match at `i`, if any. `[^>]+` is greedy, so the engine settles
      on the last `src=` that lets the rest of the pattern match. */
  function HtmlAt(c: string, i: nat): (r: Option<Span>)
    ensures r.Some? ==> r.value.start == i && IsHtmlSpan(c, r.value)
    ensures r.Some? ==> forall a: nat, q: nat, g: nat :: HtmlShape(c, i, a, q, g) ==> a + 5 <= r.value.pathStart
    ensures r.None? ==> forall a: nat, q: nat, g: nat :: !HtmlShape(c, i, a, q, g)
  {
    if i + 4 <= |c| && c[i..i + 4] == "<img" then
      var gt := Find(c, '>', i + 4);
      ShapesBelowFirstGt(c, i);
      match LastSrc(c, i + 5, gt)
      case Some(a) =>
        var qg := SrcAt(c, a).value;
        Some(Span(i, qg.1 + 1, a + 5, qg.0))
      case None => None
    else None
  }

  function MatchAt(kind: Kind, c: string, i: nat): (r: Option<Span>)
    ensures r.Some? ==> r.value.start == i < r.value.end <= |c|
    ensures r.Some? ==> i < r.value.pathStart < r.value.pathEnd < r.value.end
  {
    match kind
    case Markdown => MdAt(c, i)
    case Html => HtmlAt(c, i)
  }

  /** Position `p` lies inside none of the spans. */
  predicate Uncovered(spans: seq<Span>, p: nat) {
    forall t :: 0 <= t < |spans| ==> !(spans[t].start <= p < spans[t].end)
  }

  /** `re.findall` from `from`: try each position in turn; after a match,
      carry on where it ended. */
  function FindAll(kind: Kind, c: string, from: nat): (r: seq<Span>)
    ensures forall t :: 0 <= t < |r| ==> from <= r[t].start && MatchAt(kind, c, r[t].start) == Some(r[t])
    ensures forall t :: 0 < t < |r| ==> r[t - 1].end <= r[t].start
    decreases |c| - from
  {
    if from >= |c| then []
    else
      match MatchAt(kind, c, from)
      case Some(s) =>
        var rest := FindAll(kind, c, s.end);
        var r := [s] + rest;
        assert r[0] == s;
        assert forall t :: 0 < t < |r| ==> r[t] == rest[t - 1];
        r
      case None => FindAll(kind, c, from + 1)
  }

  /** `FindAll` misses nothing: every position it did not step over, and at
      which no match starts, has no match. */
  lemma {:induction false} FindAllComplete(kind: Kind, c: string, from: nat, p: nat)
    requires from <= p && Uncovered(FindAll(kind, c, from), p)
    ensures MatchAt(kind, c, p).None?
    decreases |c| - from
  {
    if from < |c| {
      match MatchAt(kind, c, from)
      case Some(s) =>
        var rest := FindAll(kind, c, s.end);
        UncoveredTail(s, rest);
        if p >= s.end {
          FindAllComplete(kind, c, s.end, p);
        }
      case None =>
        if p > from {
          FindAllComplete(kind, c, from + 1, p);
        }
    }
  }

  /** The path groups of the matches, in order. */
  function Paths(c: string, spans: seq<Span>): (r: seq<string>)
    requires forall t :: 0 <= t < |spans| ==> spans[t].pathStart <= spans[t].pathEnd <= |c|
    ensures |r| == |spans|
    ensures forall t :: 0 <= t < |r| ==> r[t] == c[spans[t].pathStart..spans[t].pathEnd]
  {
    seq(|spans|, t requires 0 <= t < |spans| => c[spans[t].pathStart..spans[t].pathEnd])
  }

  /** Every reference `find_and_copy_images` visits: markdown ones first,
      then html ones, each in text order. */
  function References(c: string): (r: seq<string>)
  {
    Paths(c, FindAll(Markdown, c, 0)) + Paths(c, FindAll(Html, c, 0))
  }
}

=== FILE: paths.dfy ===
/** The `pathlib` operations the image lookup uses, on `/`-separated text. */
module Paths {
  import opened Chars
  import opened Strings

  predicate IsAbsolute(p: string) { |p| > 0 && p[0] == '/' }

  /** `Path(dir) / p`: an absolute `p` replaces the directory; `.` and the
      empty directory add nothing. */
  function Join(dir: string, p: string): (r: string)
    ensures IsAbsolute(p) ==> r == p
    ensures !IsAbsolute(p) && dir != "" && dir != "." ==> r == dir + "/" + p
  {
    if IsAbsolute(p) then p
    else if dir == "" || dir == "." then p
    else dir + "/" + p
  }

  /** Index just after the last `/` of `p`, or 0. */
  function NameStart(p: string): (r: nat)
    ensures r <= |p|
    ensures r > 0 ==> p[r - 1] == '/'
    ensures forall k :: r <= k < |p| ==> p[k] != '/'
    decreases |p|
  {
    if |p| == 0 then 0
    else if p[|p| - 1] == '/' then |p|
    else NameStart(p[..|p| - 1])
  }

  /** `PurePath(p).name`: the final component, after trailing slashes are dropped. */
  function Name(p: string): (r: string)
    ensures '/' !in r
    ensures EndsWith(p, r) || (|p| > 0 && p[|p| - 1] == '/')
    ensures |p| == 0 ==> r == []
    ensures |p| > 0 && p[|p| - 1] != '/' ==> r == p[NameStart(p)..]
    decreases |p|
  {
    if |p| > 0 && p[|p| - 1] == '/' then Name(p[..|p| - 1])
    else
      var i := NameStart(p);
      assert forall k :: 0 <= k < |p[i..]| ==> p[i..][k] == p[i + k];
      p[i..]
  }

  /** Index of the last `.` in `name`, if any. */
  function LastDot(name: string): (r: Option<nat>)
    ensures r.Some? ==> r.value < |name| && name[r.value] == '.'
    ensures r.Some? ==> forall k :: r.value < k < |name| ==> name[k] != '.'
    ensures r.None? ==> '.' !in name
    decreases |name|
  {
    if |name| == 0 then None
    else if name[|name| - 1] == '.' then Some(|name| - 1)
    else
      var r := LastDot(name[..|name| - 1]);
      assert name == name[..|name| - 1] + [name[|name| - 1]];
      r
  }

  /** `PurePath(p).suffix`: from the last dot of the name, unless that dot
      starts the name or ends it. */
  function Suffix(p: string): (r: string)
    ensures r == [] || (r[0] == '.' && |r| >= 2 && '/' !in r && '.' !in r[1..])
    ensures r == [] || EndsWith(Name(p), r)
    ensures LastDot(Name(p)).Some? && 0 < LastDot(Name(p)).value < |Name(p)| - 1 ==>
              r == Name(p)[LastDot(Name(p)).value..]
    ensures !(LastDot(Name(p)).Some? && 0 < LastDot(Name(p)).value < |Name(p)| - 1) ==> r == []
  {
    var name := Name(p);
    match LastDot(name)
    case Some(i) =>
      if 0 < i < |name| - 1 then
        assert forall k :: 0 <= k < |name[i..]| ==> name[i..][k] == name[i + k];
        name[i..]
      else []
    case None => []
  }

  /** `PurePath(p).stem`: the name without its suffix. */
  function Stem(p: string): (r: string)
    ensures r + Suffix(p) == Name(p)
  {
    var n := Name(p);
    var x := Suffix(p);
    assert x == [] || EndsWith(n, x);
    assert n == n[..|n| - |x|] + n[|n| - |x|..];
    n[..|n| - |x|]
  }

  /** `PurePath(p).parent`: trailing slashes are dropped first; then
      everything before the last `/`, the root for a top-level absolute path,
      `.` for a bare name. */
  function Parent(p: string): (r: string)
    ensures |p| > 0 && p[|p| - 1] != '/' && NameStart(p) > 1 ==> r + "/" + Name(p) == p
    ensures |p| > 0 && p[|p| - 1] != '/' && NameStart(p) == 0 ==> r == "."
    decreases |p|
  {
    if |p| > 1 && p[|p| - 1] == '/' then Parent(p[..|p| - 1])
    else
      var i := NameStart(p);
      if i == 0 then "."
      else if i == 1 then "/"
      else
        assert p == p[..i - 1] + "/" + p[i..];
        p[..i - 1]
  }

  /** The last-slash index is determined by its defining property. */
  lemma NameStartUnique(p: string, r: nat)
    requires r <= |p| && (r > 0 ==> p[r - 1] == '/') && forall k :: r <= k < |p| ==> p[k] != '/'
    ensures NameStart(p) == r
  {
    var n := NameStart(p);
    assert r > 0 ==> p[r - 1] == '/';
    assert n > 0 ==> p[n - 1] == '/';
  }

  /** A trailing slash does not change the parent: `x.md/` lies in `.`. */
  lemma ParentIgnoresTrailingSlash(p: string)
    requires |p| > 0
    ensures Parent(p + "/") == Parent(p)
  {
    assert (p + "/")[..|p|] == p;
  }

  /** The suffix test of `find_image_file` on an upper-case extension:
      `img/Photo.PNG` has the suffix `.PNG`, an image extension once lowered. */
  lemma SuffixExample(p: string)
    requires p == "img/Photo.PNG"
    ensures Suffix(p) == ".PNG" && LowerSuffix(p) in ImageExtensions
  {
    NameStartUnique(p, 4);
    assert Name(p) == "Photo.PNG";
    assert LastDot("Photo.PNG") == Some(5);
    assert LowerStr(".PNG") == ".png";
  }

  /** `path.suffix.lower()`. */
  function LowerSuffix(p: string): string {
    LowerStr(Suffix(p))
  }

  /** The extensions `find_image_file` accepts, compared after lower-casing. */
  const ImageExtensions: set<string> := {".jpg", ".jpeg", ".png", ".gif", ".bmp", ".svg", ".webp"}
}

=== FILE: percent.dfy ===
/** `urllib.parse.unquote` on the character model, and an escaper it inverts. */
module Percent {
  import opened Chars

  /** A `%XX` escape with two hexadecimal digits starts at `i`. */
  predicate EscapeAt(s: string, i: nat) {
    i + 2 < |s| && s[i] == '%' && IsHexDigit(s[i + 1]) && IsHexDigit(s[i + 2])
  }

  /** Every well-formed `%XX` becomes the character with code `XX`; a `%` that
      does not start one is kept, like every other character. */
  function Unquote(s: string): (r: string)
    ensures |r| <= |s|
    ensures '%' !in s ==> r == s
    decreases |s|
  {
    if |s| == 0 then []
    else if EscapeAt(s, 0) then
      [(16 * HexValue(s[1]) + HexValue(s[2])) as char] + Unquote(s[3..])
    else
      [s[0]] + Unquote(s[1..])
  }

  /** Characters left as they are by `Escape`: letters, digits and `_.-~/`. */
  predicate Safe(c: char) {
    IsLetter(c) || IsDigit(c) || c == '_' || c == '.' || c == '-' || c == '~' || c == '/'
  }

  /** Percent-encodes every unsafe ASCII character as `%XX`. A single `%XX`
      above `%7F` is not valid UTF-8, so Python would not decode it back;
      other characters are left as they are. */
  function Escape(s: string): string {
    if |s| == 0 then []
    else if !Safe(s[0]) && (s[0] as int) < 128 then
      ['%', HexChar(s[0] as int / 16), HexChar(s[0] as int % 16)] + Escape(s[1..])
    else
      [s[0]] + Escape(s[1..])
  }

  /** The escape of one character decodes back to it. */
  lemma EscapeOfCharDecodes(ch: char, t: string)
    requires (ch as int) < 128
    ensures Unquote(['%', HexChar(ch as int / 16), HexChar(ch as int % 16)] + t) == [ch] + Unquote(t)
  {
    var n := ch as int;
    var e := ['%', HexChar(n / 16), HexChar(n % 16)] + t;
    assert EscapeAt(e, 0);
    assert 16 * (n / 16) + n % 16 == n;
    assert e[3..] == t;
  }

  /** A character that decodes as itself. */
  lemma PlainCharDecodes(ch: char, t: string)
    requires ch != '%'
    ensures Unquote([ch] + t) == [ch] + Unquote(t)
  {
    var e := [ch] + t;
    assert !EscapeAt(e, 0);
    assert e[1..] == t;
  }

  /** Decoding undoes escaping. */
  lemma {:induction false} UnquoteEscape(s: string)
    ensures Unquote(Escape(s)) == s
    decreases |s|
  {
    if |s| > 0 {
      UnquoteEscape(s[1..]);
      var t := Escape(s[1..]);
      if !Safe(s[0]) && (s[0] as int) < 128 {
        assert Escape(s) == ['%', HexChar(s[0] as int / 16), HexChar(s[0] as int % 16)] + t;
        EscapeOfCharDecodes(s[0], t);
      } else {
        assert Escape(s) == [s[0]] + t;
        PlainCharDecodes(s[0], t);
      }
      assert [s[0]] + s[1..] == s;
    }
  }

  /** An escape in the text makes the decoded path strictly shorter. */
  lemma {:induction false} UnquoteShrinks(s: string, i: nat)
    requires EscapeAt(s, i)
    ensures |Unquote(s)| < |s|
    decreases |s|
  {
    if EscapeAt(s, 0) {
      assert |Unquote(s[3..])| <= |s| - 3;
    } else {
      assert EscapeAt(s[1..], i - 1);
      UnquoteShrinks(s[1..], i - 1);
    }
  }
}

=== FILE: pipeline.dfy ===
/** `process_markdown_file` and `process_directory`: which notes are picked
    up, what is written for each, and the success count. */
module Pipeline {
  import opened Chars
  import opened Strings
  import opened Paths
  import opened Title
  import opened Slugs
  import opened FrontMatter
  import opened ImageScan
  import opened Resolver
  import opened Rewrite
  import opened Tags

  /** What the migrator was started on. A directory is given by every path
      below it, in the order a recursive walk visits them. */
  datatype InputPath = FileArg(path: string) | DirectoryArg(walk: seq<string>) | NoSuchPath

  /** What `extract_title_from_content` sees of the input: only a file has a stem. */
  function InputKindOf(input: InputPath): InputKind {
    match input
    case FileArg(p) => SingleFile(Stem(p))
    case _ => Batch
  }

  /** `rglob(pattern)` for `*` followed by `ext`: the walk entries whose
      name ends with `ext`, in walk order. */
  function Matching(walk: seq<string>, ext: string): (r: seq<string>)
    ensures forall p :: p in r <==> p in walk && EndsWith(Name(p), ext)
    ensures |r| <= |walk|
  {
    if |walk| == 0 then []
    else
      var rest := Matching(walk[1..], ext);
      assert forall p :: p in walk <==> p == walk[0] || p in walk[1..];
      if EndsWith(Name(walk[0]), ext) then [walk[0]] + rest else rest
  }

  /** The suffixes `process_directory` accepts for a single file, after lower-casing. */
  const MarkdownSuffixes: set<string> := {".md", ".markdown"}

  /** The notes `process_directory` processes, in order. A single file is
      judged by its lower-cased suffix; in a directory the `.md` names come
      first, then the `.markdown` names, both matched case-sensitively. */
  function Discover(input: InputPath): (r: seq<string>)
    ensures input.FileArg? ==> (r == [input.path] <==> LowerSuffix(input.path) in MarkdownSuffixes)
    ensures input.FileArg? && LowerSuffix(input.path) !in MarkdownSuffixes ==> r == []
    ensures input.DirectoryArg? ==>
              forall p :: p in r <==> p in input.walk && (EndsWith(Name(p), ".md") || EndsWith(Name(p), ".markdown"))
    ensures input.NoSuchPath? ==> r == []
  {
    match input
    case FileArg(p) => if LowerSuffix(p) in MarkdownSuffixes then [p] else []
    case DirectoryArg(walk) => Matching(walk, ".md") + Matching(walk, ".markdown")
    case NoSuchPath => []
  }

  /** No name ends with both `.md` and `.markdown`. */
  lemma SuffixesDisjoint(n: string)
    requires EndsWith(n, ".markdown")
    ensures !EndsWith(n, ".md")
  {
    assert n[|n| - 1] == 'n';
  }

  /** A walk that visits each path once yields each note once. */
  lemma {:induction false} MatchingDistinct(walk: seq<string>, ext: string)
    requires Distinct(walk)
    ensures Distinct(Matching(walk, ext))
    decreases |walk|
  {
    if |walk| > 0 {
      var rest := Matching(walk[1..], ext);
      assert Distinct(walk[1..]) by {
        forall i, j | 0 <= i < j < |walk[1..]| ensures walk[1..][i] != walk[1..][j] {
          assert walk[1..][i] == walk[i + 1] && walk[1..][j] == walk[j + 1];
        }
      }
      MatchingDistinct(walk[1..], ext);
      if EndsWith(Name(walk[0]), ext) {
        assert walk[0] !in walk[1..];
        ConsDistinct(walk[0], rest);
      }
    }
  }

  /** Each note of a directory is processed exactly once. */
  lemma DiscoverDistinct(walk: seq<string>)
    requires Distinct(walk)
    ensures Distinct(Discover(DirectoryArg(walk)))
  {
    var a := Matching(walk, ".md");
    var b := Matching(walk, ".markdown");
    MatchingDistinct(walk, ".md");
    MatchingDistinct(walk, ".markdown");
    var r := a + b;
    forall i, j | 0 <= i < j < |r| ensures r[i] != r[j] {
      if i < |a| && j >= |a| {
        assert r[i] == a[i] && r[j] == b[j - |a|];
        assert a[i] in a && b[j - |a|] in b;
        assert EndsWith(Name(a[i]), ".md");
        assert EndsWith(Name(b[j - |a|]), ".markdown");
        SuffixesDisjoint(Name(r[j]));
      } else if j < |a| {
        assert r[i] == a[i] && r[j] == a[j];
      } else {
        assert r[i] == b[i - |a|] && r[j] == b[j - |a|];
      }
    }
  }

  /** What processing a note depends on besides its own file: the visible
      files, the hash, the segmenter and what the migrator was started on. */
  datatype Env = Env(fs: FileSystem, digest: Digest, segment: string -> Option<seq<string>>, input: InputKind)

  /** One note as the operating system presents it: its text if it reads as
      UTF-8, its modification date, and whether its output can be written. */
  datatype Note = Note(content: Option<string>, modified: Date, writable: bool)

  /** The result of `process_markdown_file`: the output file and the images
      copied for it, or a failure caught by its `except`. */
  datatype Outcome =
    | Written(name: string, text: string, images: Mapping)
    | Failed

  /** The default of `extract_tags_from_content`. */
  const MaxTags: nat := 5

  /** `process_markdown_file` on the note at `path`. Reading the note, dating
      it, hashing or copying one of its images, and writing the post can each
      raise; every exception ends in `Failed`. */
  function ProcessMarkdownFile(env: Env, path: string, note: Note): (r: Outcome)
    ensures r.Written? <==>
              && note.content.Some? && ValidDate(note.modified)
              && !CopyFails(env.fs, env.digest, Parent(path), note.content.value) && note.writable
  {
    match note.content
    case None => Failed
    case Some(c) =>
      if !ValidDate(note.modified) || CopyFails(env.fs, env.digest, Parent(path), c) || !note.writable then Failed
      else
        var title := ExtractTitle(c, env.input);
        var tags := ExtractTags(c, env.segment, MaxTags);
        var images := FindAndCopyImages(env.fs, env.digest, Parent(path), c);
        var body := UpdateImagePaths(c, images);
        Written(OutputFileName(title, note.modified), Header(title, note.modified, tags) + body, images)
  }

  /** A note that references an image already stored under its own store
      name fails: `shutil.copy2` refuses to copy a file onto itself. */
  lemma OwnStoreCopyFails(env: Env, path: string, note: Note, t: nat)
    requires note.content.Some? && t < |References(note.content.value)|
    requires var f := Resolution(env.fs, Parent(path), References(note.content.value)[t]);
             f.Some? && Located(env.fs, f.value) == Located(env.fs, StorePath(env.fs, env.digest, f.value))
    ensures ProcessMarkdownFile(env, path, note).Failed?
  {
    assert CopyRaises(env.fs, env.digest, Parent(path), References(note.content.value)[t]);
  }

  /** Tags never span lines when the segmenter's keywords do not. */
  lemma TagsOneLine(c: string, segment: string -> Option<seq<string>>)
    requires var kws := segment(CleanForTags(c));
             kws.Some? ==> forall w :: w in kws.value ==> '\n' !in w
    ensures forall i :: 0 <= i < |ExtractTags(c, segment, MaxTags)| ==> OneLine(ExtractTags(c, segment, MaxTags)[i])
  {
    var tags := ExtractTags(c, segment, MaxTags);
    if segment(CleanForTags(c)).Some? {
      SegmenterTags(c, segment, MaxTags);
      assert forall i :: 0 <= i < |tags| ==> tags[i] in tags;
    } else {
      FallbackTags(c, segment, MaxTags);
      forall i | 0 <= i < |tags| ensures OneLine(tags[i]) {
        assert tags[i] in tags;
        assert forall k :: 0 <= k < |tags[i]| ==> IsLower(tags[i][k]);
      }
    }
  }

  /** A written post reads back: the front matter carries the note's title,
      date, permalink and tags, and the body is the note with its image
      references rewritten; the file name is the date and the slug of the
      title. */
  lemma WrittenPostReadsBack(env: Env, path: string, note: Note)
    requires note.content.Some? && ValidDate(note.modified) && note.writable
    requires !CopyFails(env.fs, env.digest, Parent(path), note.content.value)
    requires env.input.SingleFile? ==> '\n' !in env.input.stem
    requires var kws := env.segment(CleanForTags(note.content.value));
             kws.Some? ==> forall w :: w in kws.value ==> '\n' !in w
    ensures var c := note.content.value;
            var title := ExtractTitle(c, env.input);
            var tags := ExtractTags(c, env.segment, MaxTags);
            var images := FindAndCopyImages(env.fs, env.digest, Parent(path), c);
            var r := ProcessMarkdownFile(env, path, note);
            && r.Written?
            && r.name == DateStamp(note.modified) + "-" + Slug(title) + ".md"
            && r.images == images
            && ParsePost(r.text) == Some(Post(title, note.modified, Permalink(title, note.modified), tags,
                                              UpdateImagePaths(c, images)))
  {
    var c := note.content.value;
    var title := ExtractTitle(c, env.input);
    var tags := ExtractTags(c, env.segment, MaxTags);
    TitleOneLine(c, env.input);
    TagsOneLine(c, env.segment);
    var images := FindAndCopyImages(env.fs, env.digest, Parent(path), c);
    HeaderRoundTrip(title, note.modified, tags, UpdateImagePaths(c, images));
    assert ProcessMarkdownFile(env, path, note)
             == Written(OutputFileName(title, note.modified), Header(title, note.modified, tags) + UpdateImagePaths(c, images), images);
  }

  /** The final line of `process_directory`, or the early return when no
      note was found. */
  datatype Summary = NoMarkdownFiles | Processed(succeeded: nat, total: nat)

  /** The outcome of each note, in processing order. */
  function Outcomes(env: Env, files: seq<string>, notes: string -> Note): (r: seq<Outcome>)
    ensures |r| == |files|
    ensures forall i :: 0 <= i < |files| ==> r[i] == ProcessMarkdownFile(env, files[i], notes(files[i]))
  {
    seq(|files|, i requires 0 <= i < |files| => ProcessMarkdownFile(env, files[i], notes(files[i])))
  }

  /** The success count of the loop: one per note written. */
  function Successes(outcomes: seq<Outcome>): (n: nat)
    ensures n <= |outcomes|
    ensures n == |outcomes| <==> forall i :: 0 <= i < |outcomes| ==> outcomes[i].Written?
    decreases |outcomes|
  {
    if |outcomes| == 0 then 0
    else
      var rest := Successes(outcomes[1..]);
      assert forall i :: 1 <= i < |outcomes| ==> outcomes[i] == outcomes[1..][i - 1];
      (if outcomes[0].Written? then 1 else 0) + rest
  }

  /** The count adds up over consecutive stretches of the loop. */
  lemma {:induction false} SuccessesConcat(a: seq<Outcome>, b: seq<Outcome>)
    ensures Successes(a + b) == Successes(a) + Successes(b)
    decreases |a|
  {
    if |a| == 0 {
      assert a + b == b;
    } else {
      assert (a + b)[0] == a[0] && (a + b)[1..] == a[1..] + b;
      SuccessesConcat(a[1..], b);
    }
  }

  /** One note adds one exactly when it was written. */
  lemma SuccessesOne(o: Outcome)
    ensures Successes([o]) == if o.Written? then 1 else 0
  {
    assert [o][1..] == [];
  }

  /** A written note and a failed one: `1/2` files succeed. */
  lemma OneOfTwoSucceeds(a: Outcome, b: Outcome)
    requires a.Written? && b.Failed?
    ensures Successes([a, b]) == 1
  {
    assert [a, b] == [a] + [b];
    SuccessesConcat([a], [b]);
    SuccessesOne(a);
    SuccessesOne(b);
  }

  /** `process_directory`. `notes` gives each discovered path as the
      operating system presents it; the count is the number of notes written. */
  function ProcessDirectory(input: InputPath, fs: FileSystem, digest: Digest,
                            segment: string -> Option<seq<string>>, notes: string -> Note): (r: Summary)
    ensures r.NoMarkdownFiles? <==> |Discover(input)| == 0
    ensures r.Processed? ==> r.total == |Discover(input)| && r.succeeded <= r.total
    ensures r.Processed? ==>
              r.succeeded == Successes(Outcomes(Env(fs, digest, segment, InputKindOf(input)), Discover(input), notes))
  {
    var files := Discover(input);
    if |files| == 0 then NoMarkdownFiles
    else Processed(Successes(Outcomes(Env(fs, digest, segment, InputKindOf(input)), files, notes)), |files|)
  }
}

=== FILE: resolver.dfy ===
/** `find_and_copy_images`, `find_image_file` and `generate_image_filename`:
    which references are resolved, to which file, and under which store name. */
module Resolver {
  import opened Chars
  import opened Strings
  import opened Paths
  import opened Percent
  import opened ImageScan

  newtype byte = b: int | 0 <= b < 256

  /** The files the migrator can see, keyed by absolute path, and the process
      working directory. `unreadable` holds the paths that exist but cannot be
      opened for reading (a directory named like an image, a file without
      read permission); `store` is the image directory under the project root
      and `storeWritable` tells whether it accepts new files. */
  datatype FileSystem = FileSystem(files: map<string, seq<byte>>, cwd: string,
                                   unreadable: set<string>, store: string, storeWritable: bool)

  /** The hexadecimal MD5 digest of a file's bytes; left abstract. */
  type Digest = seq<byte> -> string

  /** Where the operating system looks for `p`: relative to the working directory. */
  function Located(fs: FileSystem, p: string): string {
    Join(fs.cwd, p)
  }

  /** `Path(p).exists()`. */
  predicate Exists(fs: FileSystem, p: string) {
    Located(fs, p) in fs.files
  }

  /** The test of `find_image_file`: the file exists and its lower-cased
      suffix is an image extension. */
  predicate Qualifies(fs: FileSystem, p: string) {
    Exists(fs, p) && LowerSuffix(p) in ImageExtensions
  }

  /** The four places `find_image_file` tries, in order: the path as written,
      beside the document, in an `images` folder beside the document (by file
      name only), and under the working directory. */
  function Candidates(fs: FileSystem, path: string, dir: string): (r: seq<string>)
    ensures |r| == 4
  {
    [path, Join(dir, path), Join(Join(dir, "images"), Name(path)), Join(fs.cwd, path)]
  }

  /** Index of the first `true` at or after `from`. */
  function FirstTrue(flags: seq<bool>, from: nat): (r: Option<nat>)
    requires from <= |flags|
    ensures r.Some? ==> from <= r.value < |flags| && flags[r.value]
    ensures r.Some? ==> forall j :: from <= j < r.value ==> !flags[j]
    ensures r.None? ==> forall j :: from <= j < |flags| ==> !flags[j]
    decreases |flags| - from
  {
    if from == |flags| then None
    else if flags[from] then Some(from)
    else FirstTrue(flags, from + 1)
  }

  /** Which candidates qualify, in order. */
  function Qualifying(fs: FileSystem, cands: seq<string>): (r: seq<bool>)
    ensures |r| == |cands|
    ensures forall i :: 0 <= i < |cands| ==> r[i] == Qualifies(fs, cands[i])
  {
    seq(|cands|, i requires 0 <= i < |cands| => Qualifies(fs, cands[i]))
  }

  /** `find_image_file`: the first qualifying candidate, or nothing. */
  function FindImageFile(fs: FileSystem, path: string, dir: string): (r: Option<string>)
    ensures r.Some? ==> Qualifies(fs, r.value) && r.value in Candidates(fs, path, dir)
    ensures r.None? <==> forall i :: 0 <= i < 4 ==> !Qualifies(fs, Candidates(fs, path, dir)[i])
  {
    var cands := Candidates(fs, path, dir);
    var ok := Qualifying(fs, cands);
    match FirstTrue(ok, 0)
    case Some(i) => Some(cands[i])
    case None => None
  }

  /** The candidate found is the first one that qualifies: every earlier one fails. */
  lemma FindImageFileFirst(fs: FileSystem, path: string, dir: string)
    requires FindImageFile(fs, path, dir).Some?
    ensures exists i :: 0 <= i < 4 && FindImageFile(fs, path, dir).value == Candidates(fs, path, dir)[i]
              && forall j :: 0 <= j < i ==> !Qualifies(fs, Candidates(fs, path, dir)[j])
  {
    var cands := Candidates(fs, path, dir);
    var ok := Qualifying(fs, cands);
    var i := FirstTrue(ok, 0).value;
    assert FindImageFile(fs, path, dir).value == cands[i];
    assert forall j :: 0 <= j < i ==> !ok[j];
  }

  /** A relative path keeps its name under a directory prefix. */
  lemma {:induction false} NameUnderDir(d: string, p: string)
    requires |p| > 0 && p[0] != '/'
    ensures Name(d + "/" + p) == Name(p)
    decreases |p|
  {
    var x := d + "/" + p;
    if p[|p| - 1] == '/' {
      var p' := p[..|p| - 1];
      assert |p'| > 0;
      assert x[..|x| - 1] == d + "/" + p';
      NameUnderDir(d, p');
    } else {
      var n := NameStart(p);
      var off := |d| + 1;
      NameStartUnique(x, off + n);
      assert x[off + n..] == p[n..];
    }
  }

  /** The fourth candidate never wins: with an absolute working directory,
      whenever `Path.cwd() / image_path` qualifies, `Path(image_path)` names
      the same file and qualifies first. */
  lemma FourthCandidateRedundant(fs: FileSystem, path: string, dir: string)
    requires IsAbsolute(fs.cwd) && |path| > 0
    ensures Qualifies(fs, Candidates(fs, path, dir)[3]) ==> Qualifies(fs, Candidates(fs, path, dir)[0])
    ensures FindImageFile(fs, path, dir) != Some(Join(fs.cwd, path)) || Join(fs.cwd, path) == path
  {
    var c4 := Join(fs.cwd, path);
    if !IsAbsolute(path) {
      NameUnderDir(fs.cwd, path);
      assert Located(fs, c4) == Located(fs, path);
      assert LowerSuffix(c4) == LowerSuffix(path);
    }
    if Qualifies(fs, path) {
      var ok := Qualifying(fs, Candidates(fs, path, dir));
      assert ok[0];
      assert FirstTrue(ok, 0) == Some(0);
    }
  }

  /** `hexdigest()[:8]`: Python slicing takes at most eight characters. */
  function Prefix8(h: string): (r: string)
    ensures |r| == if |h| < 8 then |h| else 8
    ensures StartsWith(h, r)
  {
    if |h| <= 8 then h else h[..8]
  }

  /** `generate_image_filename`: hash prefix of the bytes, then the lower-cased suffix. */
  function ImageFileName(fs: FileSystem, digest: Digest, file: string): string
    requires Exists(fs, file)
  {
    Prefix8(digest(fs.files[Located(fs, file)])) + LowerSuffix(file)
  }

  /** Where `find_and_copy_images` copies a resolved image to. */
  function StorePath(fs: FileSystem, digest: Digest, file: string): string
    requires Exists(fs, file)
  {
    Join(fs.store, ImageFileName(fs, digest, file))
  }

  /** The store-relative path recorded for a resolved image. */
  function ImageUrl(fs: FileSystem, digest: Digest, file: string): string
    requires Exists(fs, file)
  {
    "/images/" + ImageFileName(fs, digest, file)
  }

  predicate IsRemote(p: string) {
    StartsWith(p, "http://") || StartsWith(p, "https://")
  }

  /** A Python dict in insertion order. */
  type Mapping = seq<(string, string)>

  predicate DistinctKeys(m: Mapping) {
    forall i, j :: 0 <= i < j < |m| ==> m[i].0 != m[j].0
  }

  predicate HasKey(m: Mapping, k: string) {
    exists i :: 0 <= i < |m| && m[i].0 == k
  }

  /** `m[k] = v`: an existing key keeps its place and takes the new value,
      a new key goes to the end. */
  function Put(m: Mapping, k: string, v: string): (r: Mapping)
    requires DistinctKeys(m)
    ensures DistinctKeys(r)
    ensures HasKey(r, k)
    ensures forall i :: 0 <= i < |r| && r[i].0 == k ==> r[i].1 == v
    ensures forall i :: 0 <= i < |r| && r[i].0 != k ==> exists j :: 0 <= j < |m| && m[j] == r[i]
    ensures forall j :: 0 <= j < |m| ==> HasKey(r, m[j].0)
    ensures |r| == if HasKey(m, k) then |m| else |m| + 1
    ensures HasKey(m, k) ==> forall i :: 0 <= i < |m| ==> r[i].0 == m[i].0 && (m[i].0 != k ==> r[i] == m[i])
    ensures !HasKey(m, k) ==> r == m + [(k, v)]
  {
    if HasKey(m, k) then
      var i :| 0 <= i < |m| && m[i].0 == k;
      var r := m[i := (k, v)];
      assert r[i].0 == k;
      assert forall j :: 0 <= j < |m| ==> r[j].0 == m[j].0;
      r
    else
      var r := m + [(k, v)];
      assert r[|m|].0 == k;
      assert forall j :: 0 <= j < |m| ==> r[j] == m[j];
      r
  }

  /** The decoded path a reference stands for, if it resolves to a local image. */
  function Resolution(fs: FileSystem, dir: string, raw: string): Option<string> {
    var path := Unquote(raw);
    if IsRemote(path) then None else FindImageFile(fs, path, dir)
  }

  /** What the mapping holds for a key: the resolved file's store path. */
  predicate Recorded(fs: FileSystem, digest: Digest, dir: string, k: string, v: string) {
    && !IsRemote(k)
    && FindImageFile(fs, k, dir).Some?
    && v == ImageUrl(fs, digest, FindImageFile(fs, k, dir).value)
  }

  predicate WellFormed(fs: FileSystem, digest: Digest, dir: string, m: Mapping) {
    DistinctKeys(m) && forall i :: 0 <= i < |m| ==> Recorded(fs, digest, dir, m[i].0, m[i].1)
  }

  /** One turn of the loop body of `find_and_copy_images`: the decoded path
      is entered exactly when it is local and resolves. */
  function Visit(fs: FileSystem, digest: Digest, dir: string, m: Mapping, raw: string): (r: Mapping)
    requires DistinctKeys(m)
    ensures DistinctKeys(r)
    ensures Resolution(fs, dir, raw).None? ==> r == m
    ensures Resolution(fs, dir, raw).Some? ==> HasKey(r, Unquote(raw))
    ensures forall j :: 0 <= j < |m| ==> HasKey(r, m[j].0)
    ensures forall i :: 0 <= i < |r| && r[i].0 != Unquote(raw) ==> exists j :: 0 <= j < |m| && m[j] == r[i]
    ensures Resolution(fs, dir, raw).Some? ==>
              forall i :: 0 <= i < |r| && r[i].0 == Unquote(raw) ==> Recorded(fs, digest, dir, r[i].0, r[i].1)
    ensures |m| <= |r| <= |m| + 1
    ensures forall j :: 0 <= j < |m| ==> r[j].0 == m[j].0 && (m[j].0 != Unquote(raw) ==> r[j] == m[j])
    ensures |r| == |m| + 1 ==> r[|m|].0 == Unquote(raw)
  {
    var path := Unquote(raw);
    if IsRemote(path) then m
    else match FindImageFile(fs, path, dir)
      case Some(file) =>
        var url := ImageUrl(fs, digest, file);
        assert Resolution(fs, dir, raw) == Some(file);
        assert Recorded(fs, digest, dir, path, url);
        Put(m, path, url)
      case None =>
        assert Resolution(fs, dir, raw).None?;
        m
  }

  /** The loop of `find_and_copy_images` over `refs`, starting from `m`. */
  function VisitAll(fs: FileSystem, digest: Digest, dir: string, m: Mapping, refs: seq<string>): (r: Mapping)
    requires DistinctKeys(m)
    ensures DistinctKeys(r)
    ensures |m| <= |r| <= |m| + |refs|
    ensures forall j :: 0 <= j < |m| ==> r[j].0 == m[j].0
    decreases |refs|
  {
    if |refs| == 0 then m
    else
      var m' := Visit(fs, digest, dir, m, refs[0]);
      VisitAll(fs, digest, dir, m', refs[1..])
  }

  /** `find_and_copy_images`. */
  function FindAndCopyImages(fs: FileSystem, digest: Digest, dir: string, c: string): (r: Mapping)
    ensures DistinctKeys(r)
  {
    VisitAll(fs, digest, dir, [], References(c))
  }

  /** Handling the reference `raw` raises: the file it resolves to cannot be
      read for hashing (`open` in `generate_image_filename`), or cannot be
      copied into the store (`shutil.copy2`), either because the store takes
      no new files or because the file already is its own store copy, which
      `copy2` refuses as the same file. */
  predicate CopyRaises(fs: FileSystem, digest: Digest, dir: string, raw: string) {
    match Resolution(fs, dir, raw)
    case Some(f) =>
      || Located(fs, f) in fs.unreadable
      || !fs.storeWritable
      || Located(fs, f) == Located(fs, StorePath(fs, digest, f))
    case None => false
  }

  /** `find_and_copy_images` raises on the text `c`: some reference fails to
      be hashed or copied. */
  predicate CopyFails(fs: FileSystem, digest: Digest, dir: string, c: string) {
    exists t :: 0 <= t < |References(c)| && CopyRaises(fs, digest, dir, References(c)[t])
  }

  /** Every entry the loop adds names a local image and maps it to the store
      path of the file it resolves to. */
  lemma {:induction false} VisitAllWellFormed(fs: FileSystem, digest: Digest, dir: string, m: Mapping, refs: seq<string>)
    requires WellFormed(fs, digest, dir, m)
    ensures WellFormed(fs, digest, dir, VisitAll(fs, digest, dir, m, refs))
    decreases |refs|
  {
    if |refs| > 0 {
      var m' := Visit(fs, digest, dir, m, refs[0]);
      forall i | 0 <= i < |m'| ensures Recorded(fs, digest, dir, m'[i].0, m'[i].1) {
        if m'[i].0 != Unquote(refs[0]) {
          var j :| 0 <= j < |m| && m[j] == m'[i];
        }
      }
      VisitAllWellFormed(fs, digest, dir, m', refs[1..]);
    }
  }

  /** Some reference of `refs` decodes to `k` and resolves. */
  ghost predicate SomeRefResolves(fs: FileSystem, dir: string, refs: seq<string>, k: string) {
    exists t :: 0 <= t < |refs| && Unquote(refs[t]) == k && Resolution(fs, dir, refs[t]).Some?
  }

  lemma SomeRefResolvesCons(fs: FileSystem, dir: string, refs: seq<string>, k: string)
    requires |refs| > 0
    ensures SomeRefResolves(fs, dir, refs, k) <==>
              (Unquote(refs[0]) == k && Resolution(fs, dir, refs[0]).Some?) || SomeRefResolves(fs, dir, refs[1..], k)
  {
    if SomeRefResolves(fs, dir, refs[1..], k) {
      var t :| 0 <= t < |refs[1..]| && Unquote(refs[1..][t]) == k && Resolution(fs, dir, refs[1..][t]).Some?;
      assert refs[t + 1] == refs[1..][t];
    }
    if SomeRefResolves(fs, dir, refs, k) && !(Unquote(refs[0]) == k && Resolution(fs, dir, refs[0]).Some?) {
      var t :| 0 <= t < |refs| && Unquote(refs[t]) == k && Resolution(fs, dir, refs[t]).Some?;
      assert refs[1..][t - 1] == refs[t];
    }
  }

  /** One turn adds the decoded path when it resolves, and no other key. */
  lemma VisitKeys(fs: FileSystem, digest: Digest, dir: string, m: Mapping, raw: string, k: string)
    requires DistinctKeys(m)
    ensures HasKey(Visit(fs, digest, dir, m, raw), k) <==>
              HasKey(m, k) || (Unquote(raw) == k && Resolution(fs, dir, raw).Some?)
  {
    var r := Visit(fs, digest, dir, m, raw);
    if HasKey(m, k) {
      var j :| 0 <= j < |m| && m[j].0 == k;
    }
    if HasKey(r, k) && !(Unquote(raw) == k && Resolution(fs, dir, raw).Some?) {
      var i :| 0 <= i < |r| && r[i].0 == k;
      if Resolution(fs, dir, raw).Some? {
        var j :| 0 <= j < |m| && m[j] == r[i];
      }
    }
  }

  /** The keys after the loop: those already present, and the decoded path of
      every reference that resolves — and nothing else. */
  lemma {:induction false} VisitAllKeys(fs: FileSystem, digest: Digest, dir: string, m: Mapping, refs: seq<string>, k: string)
    requires DistinctKeys(m)
    ensures HasKey(VisitAll(fs, digest, dir, m, refs), k) <==>
              HasKey(m, k) || exists t :: 0 <= t < |refs| && Unquote(refs[t]) == k && Resolution(fs, dir, refs[t]).Some?
    decreases |refs|
  {
    assert SomeRefResolves(fs, dir, refs, k) <==>
           exists t :: 0 <= t < |refs| && Unquote(refs[t]) == k && Resolution(fs, dir, refs[t]).Some?;
    if |refs| > 0 {
      var m' := Visit(fs, digest, dir, m, refs[0]);
      VisitAllKeys(fs, digest, dir, m', refs[1..], k);
      assert VisitAll(fs, digest, dir, m, refs) == VisitAll(fs, digest, dir, m', refs[1..]);
      assert SomeRefResolves(fs, dir, refs[1..], k) <==>
             exists t :: 0 <= t < |refs[1..]| && Unquote(refs[1..][t]) == k && Resolution(fs, dir, refs[1..][t]).Some?;
      SomeRefResolvesCons(fs, dir, refs, k);
      VisitKeys(fs, digest, dir, m, refs[0], k);
    }
  }

  /** `find_and_copy_images` as a whole: its keys are exactly the decoded
      paths of the references that resolve to a local image, each mapped to
      the store path of the file found for it. */
  lemma FindAndCopyImagesSpec(fs: FileSystem, digest: Digest, dir: string, c: string, k: string)
    ensures WellFormed(fs, digest, dir, FindAndCopyImages(fs, digest, dir, c))
    ensures HasKey(FindAndCopyImages(fs, digest, dir, c), k) <==>
              exists t :: 0 <= t < |References(c)| && Unquote(References(c)[t]) == k
                            && Resolution(fs, dir, References(c)[t]).Some?
  {
    VisitAllWellFormed(fs, digest, dir, [], References(c));
    VisitAllKeys(fs, digest, dir, [], References(c), k);
  }

  /** When `find_and_copy_images` returns, every image in its mapping was
      read, was not already its own store copy, and the store took it. */
  lemma CopiedImagesReadable(fs: FileSystem, digest: Digest, dir: string, c: string, i: nat)
    requires !CopyFails(fs, digest, dir, c)
    requires i < |FindAndCopyImages(fs, digest, dir, c)|
    ensures var k := FindAndCopyImages(fs, digest, dir, c)[i].0;
            && FindImageFile(fs, k, dir).Some?
            && var f := FindImageFile(fs, k, dir).value;
            && Located(fs, f) !in fs.unreadable
            && Located(fs, f) != Located(fs, StorePath(fs, digest, f))
            && fs.storeWritable
  {
    var m := FindAndCopyImages(fs, digest, dir, c);
    var k := m[i].0;
    FindAndCopyImagesSpec(fs, digest, dir, c, k);
    assert HasKey(m, k);
    var refs := References(c);
    var t :| 0 <= t < |refs| && Unquote(refs[t]) == k && Resolution(fs, dir, refs[t]).Some?;
    assert !CopyRaises(fs, digest, dir, refs[t]);
  }

  /** Store names are content addressed: two keys whose files hold the same
      bytes under the same suffix share one store path. */
  lemma SameContentSameUrl(fs: FileSystem, digest: Digest, dir: string, m: Mapping, i: nat, j: nat)
    requires WellFormed(fs, digest, dir, m) && i < |m| && j < |m|
    requires var fi := FindImageFile(fs, m[i].0, dir).value; var fj := FindImageFile(fs, m[j].0, dir).value;
             fs.files[Located(fs, fi)] == fs.files[Located(fs, fj)] && LowerSuffix(fi) == LowerSuffix(fj)
    ensures m[i].1 == m[j].1
  {
    assert Recorded(fs, digest, dir, m[i].0, m[i].1);
    assert Recorded(fs, digest, dir, m[j].0, m[j].1);
  }
}

=== FILE: rewrite.dfy ===
/** `update_image_paths`: for each mapping entry, in insertion order, two
    `re.sub` passes whose patterns embed the key as literal text:
      markdown  `!\[([^\]]*)\]\(` OLD `\)`         ->  `![\1](NEW)`
      html      `<img([^>]+)src=["\']` OLD `["\']([^>]*)>`  ->  `<img\1src="NEW"\2>` */
module Rewrite {
  import opened Chars
  import opened Strings
  import opened ImageScan
  import opened Percent
  import opened Resolver

  /** `s` occurs literally at `i`. */
  predicate LiteralAt(c: string, i: nat, s: string) {
    i + |s| <= |c| && c[i..i + |s|] == s
  }

  /** The markdown rewrite pattern for `key` matches at `i`, with the `]` of
      the alt text at `j`. */
  predicate MdRefShape(c: string, i: nat, j: nat, key: string) {
    && i + 2 <= j && j + 2 + |key| < |c|
    && c[i] == '!' && c[i + 1] == '[' && NoneOf(c, i + 2, j, ']') && c[j] == ']'
    && c[j + 1] == '(' && LiteralAt(c, j + 2, key) && c[j + 2 + |key|] == ')'
  }

  /** The `src=` part of the html rewrite pattern for `key`, from `a` to the
      closing `>` at `g`; either quote may be `"` or `'`. */
  predicate SrcOldShape(c: string, a: nat, g: nat, key: string) {
    && a + 6 + |key| <= g < |c|
    && c[a..a + 4] == "src=" && IsQuote(c[a + 4]) && LiteralAt(c, a + 5, key)
    && IsQuote(c[a + 5 + |key|]) && NoneOf(c, a + 6 + |key|, g, '>') && c[g] == '>'
  }

  /** The html rewrite pattern for `key` matches at `i` with `src=` at `a`. */
  predicate HtmlRefShape(c: string, i: nat, a: nat, g: nat, key: string) {
    && i + 5 <= a && i + 4 <= |c| && c[i..i + 4] == "<img" && a <= |c| && NoneOf(c, i + 4, a, '>')
    && SrcOldShape(c, a, g, key)
  }

  /** Where the markdown rewrite for `key` matches at `i`: the position of `]`.
      The alt group stops at the first `]`, so the match is unique. */
  function MdRewriteAt(c: string, i: nat, key: string): (r: Option<nat>)
    ensures r.Some? ==> MdRefShape(c, i, r.value, key)
    ensures r.Some? ==> forall j: nat :: MdRefShape(c, i, j, key) ==> j == r.value
    ensures r.None? ==> forall j: nat :: !MdRefShape(c, i, j, key)
  {
    if i + 2 <= |c| && c[i] == '!' && c[i + 1] == '[' then
      var j := Find(c, ']', i + 2);
      if j + 2 + |key| < |c| && c[j + 1] == '(' && c[j + 2..j + 2 + |key|] == key && c[j + 2 + |key|] == ')'
      then Some(j) else None
    else None
  }

  /** The closing `>` of the html rewrite pattern when its `src=` is at `a`. */
  function SrcOldAt(c: string, a: nat, key: string): (r: Option<nat>)
    ensures r.Some? ==> SrcOldShape(c, a, r.value, key)
    ensures r.Some? ==> forall g: nat :: SrcOldShape(c, a, g, key) ==> g == r.value
    ensures r.None? ==> forall g: nat :: !SrcOldShape(c, a, g, key)
  {
    if a + 6 + |key| <= |c| && c[a..a + 4] == "src=" && IsQuote(c[a + 4])
       && c[a + 5..a + 5 + |key|] == key && IsQuote(c[a + 5 + |key|])
    then
      var g := Find(c, '>', a + 6 + |key|);
      if g < |c| then Some(g) else None
    else None
  }

  /** The largest `a` in `[lo, hi]` at which the `src=` part for `key` matches. */
  function LastSrcOld(c: string, key: string, lo: nat, hi: nat): (r: Option<nat>)
    ensures r.Some? ==> lo <= r.value <= hi && SrcOldAt(c, r.value, key).Some?
    ensures r.Some? ==> forall a :: r.value < a <= hi ==> SrcOldAt(c, a, key).None?
    ensures r.None? ==> forall a :: lo <= a <= hi ==> SrcOldAt(c, a, key).None?
    decreases hi
  {
    if hi < lo then None
    else if SrcOldAt(c, hi, key).Some? then Some(hi)
    else if hi == 0 then None
    else
      var r := LastSrcOld(c, key, lo, hi - 1);
      assert SrcOldAt(c, hi, key).None?;
      r
  }

  /** `([^>]+)` cannot run past the first `>` after `<img`. */
  lemma RefShapesBelowFirstGt(c: string, i: nat, key: string)
    requires i + 4 <= |c|
    ensures forall a: nat, g: nat :: HtmlRefShape(c, i, a, g, key) ==>
              a <= Find(c, '>', i + 4) && SrcOldAt(c, a, key).Some?
  {
    var gt := Find(c, '>', i + 4);
    assert gt < |c| ==> c[gt] == '>';
  }

  /** Where the html rewrite for `key` matches at `i`: `src=` at the largest
      position that lets the pattern match (the group `([^>]+)` is greedy),
      and the closing `>`. */
  function HtmlRewriteAt(c: string, i: nat, key: string): (r: Option<(nat, nat)>)
    ensures r.Some? ==> HtmlRefShape(c, i, r.value.0, r.value.1, key)
    ensures r.Some? ==> forall a: nat, g: nat :: HtmlRefShape(c, i, a, g, key) ==> a <= r.value.0
    ensures r.None? ==> forall a: nat, g: nat :: !HtmlRefShape(c, i, a, g, key)
  {
    if i + 4 <= |c| && c[i..i + 4] == "<img" then
      var gt := Find(c, '>', i + 4);
      RefShapesBelowFirstGt(c, i, key);
      match LastSrcOld(c, key, i + 5, gt)
      case Some(a) => Some((a, SrcOldAt(c, a, key).value))
      case None => None
    else None
  }

  /** One replacement: the matched text ends just before `end` and becomes `text`. */
  datatype Edit = Edit(end: nat, text: string)

  /** The markdown replacement: the alt text is kept, the path becomes `url`. */
  function MdEdit(c: string, i: nat, j: nat, key: string, url: string): Edit
    requires MdRefShape(c, i, j, key)
  {
    Edit(j + 3 + |key|, "![" + c[i + 2..j] + "](" + url + ")")
  }

  /** The html replacement: the attributes before and after `src` are kept,
      the path becomes `url` and both quotes become `"`. */
  function HtmlEdit(c: string, i: nat, a: nat, g: nat, key: string, url: string): Edit
    requires HtmlRefShape(c, i, a, g, key)
  {
    Edit(g + 1, "<img" + c[i + 4..a] + "src=\"" + url + "\"" + c[a + 6 + |key|..g] + ">")
  }

  /** The replacement `re.sub` makes at `i`, if its pattern matches there. */
  function RewriteAt(kind: Kind, c: string, i: nat, key: string, url: string): (r: Option<Edit>)
    ensures r.Some? ==> i < r.value.end <= |c|
  {
    match kind
    case Markdown =>
      (match MdRewriteAt(c, i, key)
       case Some(j) => Some(MdEdit(c, i, j, key, url))
       case None => None)
    case Html =>
      (match HtmlRewriteAt(c, i, key)
       case Some(ag) => Some(HtmlEdit(c, i, ag.0, ag.1, key, url))
       case None => None)
  }

  /** `re.sub` from `from` on: scan left to right, replace each match and
      carry on after it, copy every other character. */
  function SubFrom(kind: Kind, c: string, key: string, url: string, from: nat): string
    decreases |c| - from
  {
    if from >= |c| then []
    else
      match RewriteAt(kind, c, from, key, url)
      case Some(e) => e.text + SubFrom(kind, c, key, url, e.end)
      case None => [c[from]] + SubFrom(kind, c, key, url, from + 1)
  }

  function Sub(kind: Kind, c: string, key: string, url: string): string {
    SubFrom(kind, c, key, url, 0)
  }

  /** `update_image_paths`: both passes for each entry, in insertion order. */
  function UpdateImagePaths(c: string, m: Mapping): string
    decreases |m|
  {
    if |m| == 0 then c
    else
      var (key, url) := m[0];
      UpdateImagePaths(Sub(Html, Sub(Markdown, c, key, url), key, url), m[1..])
  }

  /** With a single entry, `update_image_paths` is the markdown pass followed
      by the html pass. */
  lemma UpdateOne(c: string, key: string, url: string)
    ensures UpdateImagePaths(c, [(key, url)]) == Sub(Html, Sub(Markdown, c, key, url), key, url)
  {
    var m: Mapping := [(key, url)];
    assert m[1..] == [];
  }

  /** Where the pattern matches nowhere, `re.sub` leaves the text as it is. */
  lemma {:induction false} SubUnchanged(kind: Kind, c: string, key: string, url: string, from: nat)
    requires from <= |c|
    requires forall p :: from <= p < |c| ==> RewriteAt(kind, c, p, key, url).None?
    ensures SubFrom(kind, c, key, url, from) == c[from..]
    decreases |c| - from
  {
    if from < |c| {
      SubUnchanged(kind, c, key, url, from + 1);
      assert c[from..] == [c[from]] + c[from + 1..];
    }
  }

  /** The markdown replacement with the path unchanged is the matched text. */
  lemma MdEditIdentity(c: string, i: nat, j: nat, key: string)
    requires MdRefShape(c, i, j, key)
    ensures MdEdit(c, i, j, key, key).text == c[i..j + 3 + |key|]
  {
    var k := j + 2 + |key|;
    assert c[i..k + 1] == c[i..i + 2] + c[i + 2..j] + c[j..j + 2] + c[j + 2..k] + c[k..k + 1];
    assert c[i..i + 2] == "![";
    assert c[j..j + 2] == "](";
    assert c[k..k + 1] == ")";
  }

  /** Where the markdown rewrite matches, `re.sub` makes the markdown replacement. */
  lemma MdRewriteEdit(c: string, i: nat, key: string, url: string, j: nat)
    requires MdRewriteAt(c, i, key) == Some(j)
    ensures MdRefShape(c, i, j, key)
    ensures RewriteAt(Markdown, c, i, key, url) == Some(MdEdit(c, i, j, key, url))
  {
  }

  /** A markdown match rewritten to its own path reproduces itself. */
  lemma MdSelfHit(c: string, key: string, from: nat, j: nat)
    requires from < |c| && MdRewriteAt(c, from, key) == Some(j)
    requires SubFrom(Markdown, c, key, key, j + 3 + |key|) == c[j + 3 + |key|..]
    ensures SubFrom(Markdown, c, key, key, from) == c[from..]
  {
    var k := j + 3 + |key|;
    MdSelfEdit(c, from, key, j);
    SubHitCopies(Markdown, c, key, key, from, Edit(k, c[from..k]));
  }

  /** Rewritten to its own path, a markdown match becomes the matched text. */
  lemma MdSelfEdit(c: string, i: nat, key: string, j: nat)
    requires MdRewriteAt(c, i, key) == Some(j)
    ensures j + 3 + |key| <= |c|
    ensures RewriteAt(Markdown, c, i, key, key) == Some(Edit(j + 3 + |key|, c[i..j + 3 + |key|]))
  {
    MdRewriteEdit(c, i, key, key, j);
    MdEditIdentity(c, i, j, key);
  }

  /** Where no markdown match starts, the character is copied. */
  lemma MdSelfMiss(c: string, key: string, from: nat)
    requires from < |c| && MdRewriteAt(c, from, key).None?
    requires SubFrom(Markdown, c, key, key, from + 1) == c[from + 1..]
    ensures SubFrom(Markdown, c, key, key, from) == c[from..]
  {
    assert RewriteAt(Markdown, c, from, key, key).None?;
    SubStep(Markdown, c, key, key, from);
    SuffixCons(c, from);
  }

  /** Rewriting a markdown path to itself changes nothing: the replacement
      reproduces the matched text. */
  lemma {:induction false} MdSelfRewrite(c: string, key: string, from: nat)
    requires from <= |c|
    ensures SubFrom(Markdown, c, key, key, from) == c[from..]
    decreases |c| - from
  {
    if from < |c| {
      var r := MdRewriteAt(c, from, key);
      if r.Some? {
        var j := r.value;
        var k := j + 3 + |key|;
        MdSelfRewrite(c, key, k);
        assert SubFrom(Markdown, c, key, key, k) == c[k..];
        MdSelfHit(c, key, from, j);
      } else {
        MdSelfRewrite(c, key, from + 1);
        MdSelfMiss(c, key, from);
      }
    }
  }

  /** Both engines agree on markdown references: the rewrite for `key` fires
      at `i` exactly when the scanner finds a reference there whose path is
      `key` — provided `key` is not empty and has no `)`, which would end
      the scanner's path. */
  lemma MdRewriteMatchesScan(c: string, i: nat, key: string)
    requires |key| > 0 && ')' !in key
    ensures MdRewriteAt(c, i, key).Some? <==>
              MdAt(c, i).Some? && c[MdAt(c, i).value.pathStart..MdAt(c, i).value.pathEnd] == key
  {
    var r := MdRewriteAt(c, i, key);
    if r.Some? {
      var j := r.value;
      var k := j + 2 + |key|;
      assert NoneOf(c, j + 2, k, ')') by {
        forall t | j + 2 <= t < k ensures c[t] != ')' {
          assert c[t] == key[t - (j + 2)];
        }
      }
      assert MdShape(c, i, j, k);
    }
    var s := MdAt(c, i);
    if s.Some? && c[s.value.pathStart..s.value.pathEnd] == key {
      assert MdRefShape(c, i, s.value.pathStart - 2, key);
    }
  }

  /** At a markdown reference whose path is `key`, the rewrite keeps the alt
      text and puts `url` in place of the path. */
  lemma MdRewriteKeepsAlt(c: string, i: nat, s: Span, key: string, url: string)
    requires |key| > 0 && ')' !in key
    requires MdAt(c, i) == Some(s) && c[s.pathStart..s.pathEnd] == key
    ensures RewriteAt(Markdown, c, i, key, url) == Some(Edit(s.end, "![" + c[i + 2..s.pathStart - 2] + "](" + url + ")"))
  {
    MdRewriteMatchesScan(c, i, key);
    assert IsMdSpan(c, s);
    var j := s.pathStart - 2;
    assert MdRefShape(c, i, j, key);
    assert MdRewriteAt(c, i, key) == Some(j);
    MdRewriteEdit(c, i, key, url, j);
  }

  /** The scanner's `src=` part, read with its own path as the key. */
  lemma SrcOldOfSrc(c: string, a: nat, q: nat, g: nat, key: string)
    requires SrcShape(c, a, q, g) && c[a + 5..q] == key
    ensures SrcOldShape(c, a, g, key)
  {
    assert q == a + 5 + |key|;
    assert LiteralAt(c, a + 5, key);
  }

  /** The scanner's html reference, read with its own path as the key. */
  lemma RefShapeOfScan(c: string, i: nat, s: Span, key: string)
    requires HtmlAt(c, i) == Some(s) && c[s.pathStart..s.pathEnd] == key
    ensures HtmlRefShape(c, i, s.pathStart - 5, s.end - 1, key)
  {
    RefShapeOfSpan(c, s, key);
  }

  /** An html span, read with its own path as the key. */
  lemma RefShapeOfSpan(c: string, s: Span, key: string)
    requires IsHtmlSpan(c, s) && c[s.pathStart..s.pathEnd] == key
    ensures HtmlRefShape(c, s.start, s.pathStart - 5, s.end - 1, key)
  {
    SrcOldOfSrc(c, s.pathStart - 5, s.pathEnd, s.end - 1, key);
  }

  /** A rewrite match for a quote-free key is a scanner match too. */
  lemma ScanShapeOfRef(c: string, i: nat, a: nat, g: nat, key: string)
    requires |key| > 0
    requires forall t :: 0 <= t < |key| ==> !IsQuote(key[t])
    requires HtmlRefShape(c, i, a, g, key)
    ensures HtmlShape(c, i, a, a + 5 + |key|, g)
  {
    forall t | a + 5 <= t < a + 5 + |key| ensures !IsQuote(c[t]) {
      assert c[t] == c[a + 5..a + 5 + |key|][t - (a + 5)];
    }
  }

  /** At an html reference whose path is `key`, the rewrite picks the same
      `src=` as the scanner, so the path the scanner reported is the one
      replaced — provided `key` holds no quote, which would end the
      scanner's path. */
  lemma HtmlRewriteMatchesScan(c: string, i: nat, s: Span, key: string)
    requires forall t :: 0 <= t < |key| ==> !IsQuote(key[t])
    requires HtmlAt(c, i) == Some(s) && c[s.pathStart..s.pathEnd] == key
    ensures HtmlRewriteAt(c, i, key) == Some((s.pathStart - 5, s.end - 1))
  {
    var a := s.pathStart - 5;
    var g := s.end - 1;
    RefShapeOfScan(c, i, s, key);
    var r := HtmlRewriteAt(c, i, key);
    assert r.Some?;
    var a' := r.value.0;
    var g' := r.value.1;
    assert a <= a';
    ScanShapeOfRef(c, i, a', g', key);
    assert a' + 5 <= s.pathStart;
    FirstGtUnique(c, a + 6 + |key|, g, g');
  }

  /** The `>` that closes a tag is the first one after its start. */
  lemma FirstGtUnique(c: string, from: nat, g: nat, g': nat)
    requires from <= g < |c| && NoneOf(c, from, g, '>') && c[g] == '>'
    requires from <= g' < |c| && NoneOf(c, from, g', '>') && c[g'] == '>'
    ensures g == g'
  {
    assert !(g < g') && !(g' < g);
  }

  /** At an html reference whose path is `key`, the rewrite keeps the
      attributes on both sides of `src`, puts `url` in place of the path and
      writes both quotes as `"`. */
  lemma HtmlRewriteKeepsAttributes(c: string, i: nat, s: Span, key: string, url: string)
    requires forall t :: 0 <= t < |key| ==> !IsQuote(key[t])
    requires HtmlAt(c, i) == Some(s) && c[s.pathStart..s.pathEnd] == key
    ensures RewriteAt(Html, c, i, key, url)
              == Some(Edit(s.end, "<img" + c[i + 4..s.pathStart - 5] + "src=\"" + url + "\""
                                  + c[s.pathEnd + 1..s.end - 1] + ">"))
  {
    HtmlRewriteMatchesScan(c, i, s, key);
    ScannedHtmlBounds(c, i, s);
    assert |key| == s.pathEnd - s.pathStart;
    HtmlSpanEdit(c, i, s, key, url);
  }

  /** The html replacement where the rewrite picks the scanned span's `src=`. */
  lemma HtmlSpanEdit(c: string, i: nat, s: Span, key: string, url: string)
    requires 5 <= s.pathStart && 1 <= s.end && |key| == s.pathEnd - s.pathStart
    requires HtmlRewriteAt(c, i, key) == Some((s.pathStart - 5, s.end - 1))
    ensures RewriteAt(Html, c, i, key, url)
              == Some(Edit(s.end, "<img" + c[i + 4..s.pathStart - 5] + "src=\"" + url + "\""
                                  + c[s.pathEnd + 1..s.end - 1] + ">"))
  {
    HtmlEditSpelled(c, i, key, url, s.pathStart - 5, s.end - 1, s.pathEnd + 1, s.end);
  }

  /** Where the scanned html span's parts lie. */
  lemma ScannedHtmlBounds(c: string, i: nat, s: Span)
    requires HtmlAt(c, i) == Some(s)
    ensures s.start == i && i + 10 <= s.pathStart < s.pathEnd < s.end <= |c|
  {
    assert IsHtmlSpan(c, s);
  }

  /** The html replacement, with the position after the closing quote and
      the end of the match named. */
  lemma HtmlEditSpelled(c: string, i: nat, key: string, url: string, a: nat, g: nat, p: nat, end: nat)
    requires HtmlRewriteAt(c, i, key) == Some((a, g)) && p == a + 6 + |key| && end == g + 1
    ensures RewriteAt(Html, c, i, key, url)
              == Some(Edit(end, "<img" + c[i + 4..a] + "src=\"" + url + "\"" + c[p..g] + ">"))
  {
    HtmlRewriteEdit(c, i, key, url, a, g);
  }

  /** Where the html rewrite matches, `re.sub` makes the html replacement. */
  lemma HtmlRewriteEdit(c: string, i: nat, key: string, url: string, a: nat, g: nat)
    requires HtmlRewriteAt(c, i, key) == Some((a, g))
    ensures HtmlRefShape(c, i, a, g, key)
    ensures RewriteAt(Html, c, i, key, url) == Some(HtmlEdit(c, i, a, g, key, url))
  {
  }

  /** One step of `re.sub` where no match starts. */
  lemma SubStep(kind: Kind, c: string, key: string, url: string, from: nat)
    requires from < |c| && RewriteAt(kind, c, from, key, url).None?
    ensures SubFrom(kind, c, key, url, from) == [c[from]] + SubFrom(kind, c, key, url, from + 1)
  {
  }

  /** One step of `re.sub` where a match starts. */
  lemma SubHit(kind: Kind, c: string, key: string, url: string, from: nat)
    requires from < |c| && RewriteAt(kind, c, from, key, url).Some?
    ensures var e := RewriteAt(kind, c, from, key, url).value;
            SubFrom(kind, c, key, url, from) == e.text + SubFrom(kind, c, key, url, e.end)
  {
  }

  /** A match whose replacement is the matched text, in front of a rest that
      `re.sub` leaves as it is, is left as it is too. */
  lemma SubHitCopies(kind: Kind, c: string, key: string, url: string, from: nat, e: Edit)
    requires from < |c| && RewriteAt(kind, c, from, key, url) == Some(e)
    requires e.text == c[from..e.end]
    requires SubFrom(kind, c, key, url, e.end) == c[e.end..]
    ensures SubFrom(kind, c, key, url, from) == c[from..]
  {
    SubHit(kind, c, key, url, from);
    SuffixSplit(c, from, e.end);
  }

  /** No rewrite of `key` starts in `c[from..p]`. */
  predicate NoRewriteIn(kind: Kind, c: string, key: string, url: string, from: nat, p: nat) {
    forall q :: from <= q < p ==> RewriteAt(kind, c, q, key, url).None?
  }

  /** Where no match starts, `re.sub` copies one more character in front of
      what it makes of the rest. */
  lemma SubCopies(kind: Kind, c: string, key: string, url: string, from: nat, p: nat, z: string)
    requires from < p <= |c| && RewriteAt(kind, c, from, key, url).None?
    requires SubFrom(kind, c, key, url, from + 1) == c[from + 1..p] + z
    ensures SubFrom(kind, c, key, url, from) == c[from..p] + z
  {
    SubStep(kind, c, key, url, from);
    assert c[from..p] == [c[from]] + c[from + 1..p];
  }

  /** `re.sub` copies the text up to the first match, replaces that match,
      and carries on after it; so every match it reaches is replaced. */
  lemma {:induction false} SubFirstMatch(kind: Kind, c: string, key: string, url: string, from: nat, p: nat, e: Edit)
    requires from <= p < |c|
    requires NoRewriteIn(kind, c, key, url, from, p)
    requires RewriteAt(kind, c, p, key, url) == Some(e)
    ensures SubFrom(kind, c, key, url, from) == c[from..p] + (e.text + SubFrom(kind, c, key, url, e.end))
    decreases p - from
  {
    var z := e.text + SubFrom(kind, c, key, url, e.end);
    if from < p {
      assert RewriteAt(kind, c, from, key, url).None? by {
        assert from <= from < p;
      }
      assert NoRewriteIn(kind, c, key, url, from + 1, p);
      SubFirstMatch(kind, c, key, url, from + 1, p, e);
      SubCopies(kind, c, key, url, from, p, z);
    } else {
      SubHit(kind, c, key, url, p);
      assert c[from..p] == [];
    }
  }

  /** The alt text of a markdown reference ends at the first `]`. */
  lemma AltEndUnique(c: string, i: nat, j: nat, j': nat)
    requires i + 2 <= j < |c| && NoneOf(c, i + 2, j, ']') && c[j] == ']'
    requires i + 2 <= j' < |c| && NoneOf(c, i + 2, j', ']') && c[j'] == ']'
    ensures j == j'
  {
    assert !(j < j') && !(j' < j);
  }

  /** A key the scanner decoded from an escaped path never matches at the
      reference it came from: the decoded key is shorter than the written
      path, and the text after it is still part of the path, not `)`. */
  lemma EscapedReferenceNotRewritten(c: string, i: nat, e: nat)
    requires MdAt(c, i).Some?
    requires EscapeAt(c[MdAt(c, i).value.pathStart..MdAt(c, i).value.pathEnd], e)
    ensures MdRewriteAt(c, i, Unquote(c[MdAt(c, i).value.pathStart..MdAt(c, i).value.pathEnd])).None?
    ensures HtmlRewriteAt(c, i, Unquote(c[MdAt(c, i).value.pathStart..MdAt(c, i).value.pathEnd])).None?
  {
    var s := MdAt(c, i).value;
    var raw := c[s.pathStart..s.pathEnd];
    var key := Unquote(raw);
    UnquoteShrinks(raw, e);
    assert IsMdSpan(c, s);
    var j0 := s.pathStart - 2;
    assert MdShape(c, i, j0, s.pathEnd);
    forall j: nat | i + 2 <= j < |c| && NoneOf(c, i + 2, j, ']') && c[j] == ']'
      ensures j + 2 + |key| < |c| ==> c[j + 2 + |key|] != ')'
    {
      AltEndUnique(c, i, j, j0);
      assert s.pathStart + |key| < s.pathEnd;
    }
    if i + 4 <= |c| {
      assert c[i..i + 4][0] == c[i] == '!';
    }
  }

  /** The html counterpart: at an `<img` reference whose path holds an
      escape, the html rewrite pattern for the decoded key cannot match at
      that reference's own `src=`, because the decoded key ends inside the
      quoted path, where no quote can follow it. */
  lemma EscapedHtmlReferenceNotRewritten(c: string, i: nat, s: Span, e: nat)
    requires HtmlAt(c, i) == Some(s)
    requires EscapeAt(c[s.pathStart..s.pathEnd], e)
    ensures forall a: nat, g: nat :: a + 5 == s.pathStart ==> !HtmlRefShape(c, i, a, g, Unquote(c[s.pathStart..s.pathEnd]))
  {
    var raw := c[s.pathStart..s.pathEnd];
    var key := Unquote(raw);
    UnquoteShrinks(raw, e);
    var a0 := s.pathStart - 5;
    assert SrcShape(c, a0, s.pathEnd, s.end - 1);
    assert !IsQuote(c[a0 + 5 + |key|]);
  }

  /** A remote markdown reference can only be rewritten by a remote key;
      since `find_and_copy_images` never records one, remote references
      are left alone. */
  lemma RemoteReferenceKept(c: string, i: nat, key: string, url: string)
    requires MdAt(c, i).Some?
    requires IsRemote(c[MdAt(c, i).value.pathStart..MdAt(c, i).value.pathEnd])
    ensures RewriteAt(Markdown, c, i, key, url).Some? ==> IsRemote(key)
  {
    var s := MdAt(c, i).value;
    var path := c[s.pathStart..s.pathEnd];
    assert IsMdSpan(c, s);
    var r := MdRewriteAt(c, i, key);
    if r.Some? {
      var j := r.value;
      AltEndUnique(c, i, j, s.pathStart - 2);
      assert s.pathEnd <= j + 2 + |key|;
      RemotePrefix(path, key, c, s.pathStart, s.pathEnd, j + 2 + |key|);
    }
  }

  /** A key that extends a remote path is remote too. */
  lemma RemotePrefix(path: string, key: string, c: string, a: nat, b: nat, e: nat)
    requires a <= b <= e <= |c| && path == c[a..b] && key == c[a..e]
    requires IsRemote(path)
    ensures IsRemote(key)
  {
    assert forall t :: 0 <= t < |path| ==> key[t] == path[t];
    if StartsWith(path, "http://") {
      assert key[..7] == path[..7];
    } else {
      assert key[..8] == path[..8];
    }
  }

  /** With no entries nothing changes, and an entry whose patterns match
      nowhere is a no-op; so text in which no key occurs as a reference is
      returned as it is. */
  lemma {:induction false} UpdateUnchanged(c: string, m: Mapping)
    requires forall t, p :: 0 <= t < |m| && 0 <= p < |c| ==>
               RewriteAt(Markdown, c, p, m[t].0, m[t].1).None? && RewriteAt(Html, c, p, m[t].0, m[t].1).None?
    ensures UpdateImagePaths(c, m) == c
    decreases |m|
  {
    if |m| > 0 {
      var (key, url) := m[0];
      SubUnchanged(Markdown, c, key, url, 0);
      SubUnchanged(Html, c, key, url, 0);
      assert Sub(Html, Sub(Markdown, c, key, url), key, url) == c;
      forall t, p | 0 <= t < |m[1..]| && 0 <= p < |c|
        ensures RewriteAt(Markdown, c, p, m[1..][t].0, m[1..][t].1).None? && RewriteAt(Html, c, p, m[1..][t].0, m[1..][t].1).None?
      {
        assert m[1..][t] == m[t + 1];
      }
      UpdateUnchanged(c, m[1..]);
    }
  }

  /** The entries are applied one after another: updating with `m1 + m2` is
      updating with `m1`, then updating the result with `m2`. */
  lemma {:induction false} UpdateSequential(c: string, m1: Mapping, m2: Mapping)
    ensures UpdateImagePaths(c, m1 + m2) == UpdateImagePaths(UpdateImagePaths(c, m1), m2)
    decreases |m1|
  {
    if |m1| == 0 {
      assert m1 + m2 == m2;
    } else {
      var (key, url) := m1[0];
      assert (m1 + m2)[0] == m1[0];
      assert (m1 + m2)[1..] == m1[1..] + m2;
      UpdateSequential(Sub(Html, Sub(Markdown, c, key, url), key, url), m1[1..], m2);
    }
  }

  /** An entry whose two patterns match nowhere in the text as it stands at
      its turn changes nothing, whatever the entries before and after it. */
  lemma IdleEntrySkipped(c: string, m1: Mapping, key: string, url: string, m2: Mapping)
    requires var t := UpdateImagePaths(c, m1);
             forall p :: 0 <= p < |t| ==> RewriteAt(Markdown, t, p, key, url).None? && RewriteAt(Html, t, p, key, url).None?
    ensures UpdateImagePaths(c, m1 + [(key, url)] + m2) == UpdateImagePaths(c, m1 + m2)
  {
    var t := UpdateImagePaths(c, m1);
    UpdateSequential(c, m1, [(key, url)] + m2);
    UpdateSequential(c, m1, m2);
    assert m1 + [(key, url)] + m2 == m1 + ([(key, url)] + m2);
    SubUnchanged(Markdown, t, key, url, 0);
    SubUnchanged(Html, t, key, url, 0);
    assert ([(key, url)] + m2)[0] == (key, url);
    assert ([(key, url)] + m2)[1..] == m2;
  }
}

module RewriteExamples {
  import opened Strings
  import opened ImageScan
  import opened Resolver
  import opened Rewrite

  /** Text without `<` offers the html pattern nowhere to match. */
  lemma NoHtmlWithoutAngle(c: string, key: string, url: string)
    requires '<' !in c
    ensures forall p :: 0 <= p < |c| ==> RewriteAt(Html, c, p, key, url).None?
  {
    forall p | 0 <= p < |c| ensures RewriteAt(Html, c, p, key, url).None? {
      if p + 4 <= |c| {
        assert c[p..p + 4][0] == c[p];
      }
    }
  }

  /** The html pass leaves text without `<` as it is. */
  lemma HtmlPassUnchanged(c: string, key: string, url: string)
    requires '<' !in c
    ensures Sub(Html, c, key, url) == c
  {
    NoHtmlWithoutAngle(c, key, url);
    SubUnchanged(Html, c, key, url, 0);
    assert c[0..] == c;
  }

  /** The markdown pass over a one-reference document. */
  lemma CaptionMarkdownPass(c: string, key: string, url: string)
    requires c == "![caption](old.png)" && key == "old.png"
    ensures Sub(Markdown, c, key, url) == "![caption](" + url + ")"
  {
    assert Find(c, ']', 2) == 9 by {
      assert c[9] == ']' && forall k :: 2 <= k < 9 ==> c[k] != ']';
    }
    assert c[11..18] == key;
    assert MdRewriteAt(c, 0, key) == Some(9);
    assert c[2..9] == "caption";
    assert "![" + c[2..9] + "](" == "![caption](";
    assert RewriteAt(Markdown, c, 0, key, url) == Some(Edit(19, "![caption](" + url + ")"));
    assert SubFrom(Markdown, c, key, url, 19) == [];
  }

  /** The rewritten caption reference has no `<`. */
  lemma CaptionRewritten(url: string, md: string)
    requires url == "/images/abcd1234.png" && md == "![caption](" + url + ")"
    ensures '<' !in md
  {
    assert '<' !in url && '<' !in "![caption](" && '<' !in ")";
  }

  /** A markdown reference to a copied image gets the store path, and its
      caption survives. */
  lemma CaptionExample(c: string, key: string, url: string)
    requires c == "![caption](old.png)" && key == "old.png" && url == "/images/abcd1234.png"
    ensures UpdateImagePaths(c, [(key, url)]) == "![caption](" + url + ")"
  {
    var md := "![caption](" + url + ")";
    CaptionRewritten(url, md);
    CaptionMarkdownPass(c, key, url);
    HtmlPassUnchanged(md, key, url);
    UpdateOne(c, key, url);
  }

  /** The markdown pattern for the decoded name matches nowhere in the
      escaped reference. */
  lemma EscapedNoMarkdownMatch(c: string, key: string, url: string)
    requires c == "![a](my%20pic.png)" && key == "my pic.png"
    ensures forall p :: 0 <= p < |c| ==> RewriteAt(Markdown, c, p, key, url).None?
  {
    assert c[3] == ']' && c[2] != ']';
    assert Find(c, ']', 2) == 3;
    assert c[5..15][2] != key[2];
    forall p | 0 <= p < |c| ensures RewriteAt(Markdown, c, p, key, url).None? {
      if p > 0 {
        assert c[p] != '!';
      }
    }
  }

  /** A reference written with `%20` is copied under its decoded name, but
      the decoded name does not occur in the text, so the reference keeps
      its original path. */
  lemma EscapedExample(c: string, key: string, url: string)
    requires c == "![a](my%20pic.png)" && key == "my pic.png" && url == "/images/abcd1234.png"
    ensures UpdateImagePaths(c, [(key, url)]) == c
  {
    EscapedNoMarkdownMatch(c, key, url);
    SubUnchanged(Markdown, c, key, url, 0);
    assert c[0..] == c;
    HtmlPassUnchanged(c, key, url);
    UpdateOne(c, key, url);
  }
}

=== FILE: slug.dfy ===
/** The title slug shared by the permalink and the output file name:
    `re.sub(r'[-\s]+', '-', re.sub(r'[^\w\s-]', '', title.lower()))`. */
module Slugs {
  import opened Chars

  /** Characters the first substitution keeps: `\w`, `\s` and `-`. */
  predicate Kept(c: char) { IsWordChar(c) || IsSpace(c) || c == '-' }

  /** Characters the second substitution gathers into runs: `-` and `\s`. */
  predicate IsSep(c: char) { c == '-' || IsSpace(c) }

  /** What a slug may contain: lower-case word characters and `-`. */
  predicate SlugChar(c: char) { (IsWordChar(c) && !IsUpper(c)) || c == '-' }

  /** A string the slug function could have produced: slug characters only,
      never two hyphens in a row. */
  predicate IsSlug(s: string) {
    && (forall i :: 0 <= i < |s| ==> SlugChar(s[i]))
    && (forall i :: 0 < i < |s| ==> !(s[i - 1] == '-' && s[i] == '-'))
  }

  /** The word characters of `s`, in order. */
  function WordChars(s: string): (r: string)
    ensures |r| <= |s|
    ensures forall i :: 0 <= i < |r| ==> IsWordChar(r[i])
  {
    if |s| == 0 then []
    else (if IsWordChar(s[0]) then [s[0]] else []) + WordChars(s[1..])
  }

  lemma {:induction false} WordCharsConcat(a: string, b: string)
    ensures WordChars(a + b) == WordChars(a) + WordChars(b)
    decreases |a|
  {
    if |a| == 0 {
      assert a + b == b;
    } else {
      assert (a + b)[1..] == a[1..] + b;
      WordCharsConcat(a[1..], b);
    }
  }

  /** `re.sub(r'[^\w\s-]', '', s)`. */
  function KeepSlugChars(s: string): (r: string)
    ensures |r| <= |s|
    ensures forall i :: 0 <= i < |r| ==> Kept(r[i]) && r[i] in s
    ensures WordChars(r) == WordChars(s)
  {
    if |s| == 0 then []
    else
      var head: string := if Kept(s[0]) then [s[0]] else [];
      WordCharsConcat(head, KeepSlugChars(s[1..]));
      head + KeepSlugChars(s[1..])
  }

  /** `re.sub(r'[-\s]+', '-', s)` where `inRun` tells whether the text just
      before `s` was a run already replaced by a hyphen. */
  function CollapseFrom(s: string, inRun: bool): (r: string)
    ensures forall i :: 0 <= i < |r| ==> !IsSpace(r[i])
    ensures forall i :: 0 <= i < |r| ==> r[i] == '-' || r[i] in s
    ensures inRun ==> |r| == 0 || r[0] != '-'
    ensures forall i :: 0 < i < |r| ==> !(r[i - 1] == '-' && r[i] == '-')
    ensures WordChars(r) == WordChars(s)
    decreases |s|
  {
    if |s| == 0 then []
    else
      var tail := CollapseFrom(s[1..], IsSep(s[0]));
      assert forall k :: 0 <= k < |s[1..]| ==> s[1..][k] == s[k + 1];
      var head: string := if IsSep(s[0]) then (if inRun then [] else ['-']) else [s[0]];
      WordCharsConcat(head, tail);
      head + tail
  }

  /** The slug of a title. */
  function Slug(title: string): (r: string)
    ensures IsSlug(r)
    ensures forall i :: 0 <= i < |r| ==> !IsSpace(r[i])
    ensures WordChars(r) == WordChars(LowerStr(title))
  {
    CollapseFrom(KeepSlugChars(LowerStr(title)), false)
  }

  lemma {:induction false} KeepAllKept(s: string)
    requires forall i :: 0 <= i < |s| ==> Kept(s[i])
    ensures KeepSlugChars(s) == s
    decreases |s|
  {
    if |s| > 0 {
      KeepAllKept(s[1..]);
    }
  }

  lemma {:induction false} CollapseSlug(s: string, inRun: bool)
    requires IsSlug(s)
    requires inRun ==> |s| == 0 || s[0] != '-'
    ensures CollapseFrom(s, inRun) == s
    decreases |s|
  {
    if |s| > 0 {
      var t := s[1..];
      assert forall k :: 0 <= k < |t| ==> t[k] == s[k + 1];
      assert IsSlug(t);
      assert IsSep(s[0]) ==> |t| == 0 || t[0] != '-';
      CollapseSlug(t, IsSep(s[0]));
      var head: string := if IsSep(s[0]) then (if inRun then [] else ['-']) else [s[0]];
      assert CollapseFrom(s, inRun) == head + CollapseFrom(t, IsSep(s[0]));
      assert head == [s[0]];
      assert s == [s[0]] + t;
    }
  }

  /** The first substitution is a filter: it works on each part of the text
      separately and keeps the surviving characters in order. */
  lemma {:induction false} KeepSlugCharsConcat(a: string, b: string)
    ensures KeepSlugChars(a + b) == KeepSlugChars(a) + KeepSlugChars(b)
    decreases |a|
  {
    if |a| == 0 {
      assert a + b == b;
    } else {
      assert (a + b)[0] == a[0];
      assert (a + b)[1..] == a[1..] + b;
      KeepSlugCharsConcat(a[1..], b);
    }
  }

  /** A single character survives the first substitution exactly when it is
      a word character, whitespace or `-`. */
  lemma KeepSlugCharsOne(ch: char)
    ensures Kept(ch) ==> KeepSlugChars([ch]) == [ch]
    ensures !Kept(ch) ==> KeepSlugChars([ch]) == []
  {
    assert [ch][1..] == [];
  }

  /** Whether the text after `a` starts inside a replaced run. */
  function RunAfter(a: string, inRun: bool): bool {
    if |a| == 0 then inRun else IsSep(a[|a| - 1])
  }

  /** What the second substitution emits for one character. */
  function CollapseHead(ch: char, inRun: bool): string {
    if IsSep(ch) then (if inRun then [] else ['-']) else [ch]
  }

  /** The second substitution without its contract, so that proofs about
      how it splits stay small. */
  function CollapseRaw(s: string, inRun: bool): string
    decreases |s|
  {
    if |s| == 0 then [] else CollapseHead(s[0], inRun) + CollapseRaw(s[1..], IsSep(s[0]))
  }

  lemma {:induction false} CollapseIsRaw(s: string, inRun: bool)
    ensures CollapseFrom(s, inRun) == CollapseRaw(s, inRun)
    decreases |s|
  {
    if |s| > 0 {
      CollapseIsRaw(s[1..], IsSep(s[0]));
    }
  }

  lemma {:induction false} RawConcat(a: string, b: string, inRun: bool)
    ensures CollapseRaw(a + b, inRun) == CollapseRaw(a, inRun) + CollapseRaw(b, RunAfter(a, inRun))
    decreases |a|
  {
    if |a| == 0 {
      assert a + b == b;
    } else {
      var ab := a + b;
      assert ab[0] == a[0] && ab[1..] == a[1..] + b;
      var h := CollapseHead(a[0], inRun);
      var t := CollapseRaw(a[1..], IsSep(a[0]));
      var u := CollapseRaw(b, RunAfter(a, inRun));
      assert RunAfter(a[1..], IsSep(a[0])) == RunAfter(a, inRun);
      RawConcat(a[1..], b, IsSep(a[0]));
      calc {
        CollapseRaw(ab, inRun);
        h + CollapseRaw(a[1..] + b, IsSep(a[0]));
        h + (t + u);
        (h + t) + u;
      }
    }
  }

  /** The second substitution also works part by part, once the state at the
      join is carried over. */
  lemma CollapseConcat(a: string, b: string, inRun: bool)
    ensures CollapseFrom(a + b, inRun) == CollapseFrom(a, inRun) + CollapseFrom(b, RunAfter(a, inRun))
  {
    CollapseIsRaw(a + b, inRun);
    CollapseIsRaw(a, inRun);
    CollapseIsRaw(b, RunAfter(a, inRun));
    RawConcat(a, b, inRun);
  }

  /** A non-empty run of whitespace and `-` becomes exactly one `-`, or
      nothing when it continues a run already replaced. */
  lemma {:induction false} CollapseRun(sep: string, inRun: bool)
    requires |sep| > 0 && forall i :: 0 <= i < |sep| ==> IsSep(sep[i])
    ensures CollapseFrom(sep, inRun) == if inRun then [] else "-"
    decreases |sep|
  {
    assert forall k :: 0 <= k < |sep[1..]| ==> sep[1..][k] == sep[k + 1];
    if |sep| > 1 {
      CollapseRun(sep[1..], true);
    }
  }

  /** Any other character is copied. */
  lemma CollapseChar(ch: char, inRun: bool)
    requires !IsSep(ch)
    ensures CollapseFrom([ch], inRun) == [ch]
  {
    assert [ch][1..] == [];
  }

  /** Between two characters that are not separators, a run of separators
      becomes exactly one `-`. */
  lemma SeparatorRunToHyphen(x: string, sep: string, y: string, inRun: bool)
    requires |x| > 0 && !IsSep(x[|x| - 1])
    requires |sep| > 0 && forall i :: 0 <= i < |sep| ==> IsSep(sep[i])
    requires |y| > 0 && !IsSep(y[0])
    ensures CollapseFrom(x + sep + y, inRun) == CollapseFrom(x, inRun) + "-" + CollapseFrom(y, false)
  {
    CollapseConcat(x + sep, y, inRun);
    CollapseConcat(x, sep, inRun);
    CollapseRun(sep, false);
    assert (x + sep)[|x + sep| - 1] == sep[|sep| - 1];
    assert y == [y[0]] + y[1..];
    CollapseConcat([y[0]], y[1..], true);
    CollapseConcat([y[0]], y[1..], false);
    CollapseChar(y[0], true);
    CollapseChar(y[0], false);
  }

  /** Lower-case letters and whitespace are kept and left alone by the
      lower-casing. */
  lemma JoinedWordsPlain(x: string, sep: string, y: string)
    requires forall i :: 0 <= i < |x| ==> IsLower(x[i])
    requires forall i :: 0 <= i < |y| ==> IsLower(y[i])
    requires forall i :: 0 <= i < |sep| ==> IsSpace(sep[i])
    ensures var t := x + sep + y; forall i :: 0 <= i < |t| ==> !IsUpper(t[i]) && Kept(t[i])
  {
    var t := x + sep + y;
    forall i | 0 <= i < |t| ensures !IsUpper(t[i]) && Kept(t[i]) {
      if i < |x| { assert t[i] == x[i]; }
      else if i < |x| + |sep| { assert t[i] == sep[i - |x|]; }
      else { assert t[i] == y[i - |x| - |sep|]; }
    }
  }

  /** A lower-case word is a slug. */
  lemma LowerWordIsSlug(x: string)
    requires |x| > 0 && forall i :: 0 <= i < |x| ==> IsLower(x[i])
    ensures IsSlug(x) && !IsSep(x[0]) && !IsSep(x[|x| - 1])
  {
  }

  /** Two lower-case words separated by whitespace: `hello world` has the
      slug `hello-world`. */
  lemma TwoWordSlug(x: string, sep: string, y: string)
    requires |x| > 0 && forall i :: 0 <= i < |x| ==> IsLower(x[i])
    requires |y| > 0 && forall i :: 0 <= i < |y| ==> IsLower(y[i])
    requires |sep| > 0 && forall i :: 0 <= i < |sep| ==> IsSpace(sep[i])
    ensures Slug(x + sep + y) == x + "-" + y
  {
    var t := x + sep + y;
    JoinedWordsPlain(x, sep, y);
    assert LowerStr(t) == t;
    KeepAllKept(t);
    LowerWordIsSlug(x);
    LowerWordIsSlug(y);
    SeparatorRunToHyphen(x, sep, y, false);
    CollapseSlug(x, false);
    CollapseSlug(y, false);
  }

  /** Slugging is idempotent: a slug is its own slug. */
  lemma SlugIdempotent(title: string)
    ensures Slug(Slug(title)) == Slug(title)
  {
    var s := Slug(title);
    assert LowerStr(s) == s;
    KeepAllKept(s);
    CollapseSlug(s, false);
  }
}

=== FILE: strings.dfy ===
/** Option, prefix/suffix tests, searching and Python's `str.strip`. */
module Strings {
  import opened Chars

  datatype Option<+T> = None | Some(value: T) {
    predicate IsFailure() { None? }

    function PropagateFailure<U>(): Option<U>
      requires None?
    {
      None
    }

    function Extract(): T
      requires Some?
    {
      value
    }
  }

  predicate StartsWith(s: string, p: string) {
    |p| <= |s| && s[..|p|] == p
  }

  predicate EndsWith(s: string, p: string) {
    |p| <= |s| && s[|s| - |p|..] == p
  }

  /** No `x` in `c[i..j]`. */
  predicate NoneOf(c: string, i: nat, j: nat, x: char)
    requires i <= j <= |c|
  {
    forall k :: i <= k < j ==> c[k] != x
  }

  /** Every character of `s[i..j]` is whitespace. */
  predicate AllSpace(s: string, i: nat, j: nat)
    requires i <= j <= |s|
  {
    forall k :: i <= k < j ==> IsSpace(s[k])
  }

  /** Index of the first `c` at or after `from`, or `|s|` if there is none. */
  function Find(s: string, c: char, from: nat): (r: nat)
    requires from <= |s|
    ensures from <= r <= |s|
    ensures r < |s| ==> s[r] == c
    ensures forall k :: from <= k < r ==> s[k] != c
    decreases |s| - from
  {
    if from == |s| || s[from] == c then from else Find(s, c, from + 1)
  }

  /** Index of the first non-whitespace character at or after `from`, or `|s|`. */
  function SkipSpaces(s: string, from: nat): (r: nat)
    requires from <= |s|
    ensures from <= r <= |s|
    ensures r < |s| ==> !IsSpace(s[r])
    ensures AllSpace(s, from, r)
    decreases |s| - from
  {
    if from == |s| || !IsSpace(s[from]) then from else SkipSpaces(s, from + 1)
  }

  /** One past the last non-whitespace character of `s[lo..hi]`, or `lo`. */
  function TrimmedEnd(s: string, lo: nat, hi: nat): (r: nat)
    requires lo <= hi <= |s|
    ensures lo <= r <= hi
    ensures r > lo ==> !IsSpace(s[r - 1])
    ensures AllSpace(s, r, hi)
    decreases hi - lo
  {
    if hi == lo || !IsSpace(s[hi - 1]) then hi else TrimmedEnd(s, lo, hi - 1)
  }

  /** Python's `str.strip()`: the longest slice of `s` that neither starts nor
      ends with whitespace, with only whitespace cut away on either side. */
  function Strip(s: string): (r: string)
    ensures |r| <= |s|
    ensures |r| > 0 ==> !IsSpace(r[0]) && !IsSpace(r[|r| - 1])
    ensures exists i :: 0 <= i <= |s| - |r| && s[i..i + |r|] == r
                        && AllSpace(s, 0, i) && AllSpace(s, i + |r|, |s|)
  {
    var i := SkipSpaces(s, 0);
    var j := TrimmedEnd(s, i, |s|);
    assert s[i..i + (j - i)] == s[i..j];
    s[i..j]
  }

  /** A string with no whitespace at either end is its own strip. */
  lemma StripUntouched(s: string)
    requires |s| > 0 && !IsSpace(s[0]) && !IsSpace(s[|s| - 1])
    ensures Strip(s) == s
  {
    assert SkipSpaces(s, 0) == 0;
    assert TrimmedEnd(s, 0, |s|) == |s|;
  }

  lemma StartsWithConcat(p: string, rest: string)
    ensures StartsWith(p + rest, p)
    ensures (p + rest)[|p|..] == rest
  {
    assert (p + rest)[..|p|] == p;
  }

  /** A suffix is its first character followed by the next suffix. */
  lemma SuffixCons(s: string, i: nat)
    requires i < |s|
    ensures s[i..] == [s[i]] + s[i + 1..]
  {
  }

  /** A suffix split at `j`. */
  lemma SuffixSplit(s: string, i: nat, j: nat)
    requires i <= j <= |s|
    ensures s[i..] == s[i..j] + s[j..]
  {
  }

  /** A slice inside the left operand of a concatenation. */
  lemma SliceLeft(a: string, b: string, i: nat, j: nat)
    requires i <= j <= |a|
    ensures (a + b)[i..j] == a[i..j]
  {
  }

  /** The right operand of a concatenation, as a slice. */
  lemma SliceRight(a: string, b: string)
    ensures (a + b)[|a|..] == b && (a + b)[|a|..|a| + |b|] == b
  {
  }
}

=== FILE: tags.dfy ===
/** `extract_tags_from_content`: markup removal, then the keywords of the
    Chinese segmenter or, when it fails, the most frequent English words. */
module Tags {
  import opened Chars
  import opened Strings
  import opened ImageScan
  import opened Rewrite

  /** The characters the first substitution blanks out: `# * ` [ ] ( )`. */
  predicate IsMarkupChar(ch: char) {
    ch == '#' || ch == '*' || ch == '`' || ch == '[' || ch == ']' || ch == '(' || ch == ')'
  }

  /** `re.sub(r'[#*`\[\]()]', ' ', content)`. */
  function BlankMarkup(c: string): (r: string)
    ensures |r| == |c|
    ensures forall i :: 0 <= i < |r| ==> !IsMarkupChar(r[i])
    ensures forall i :: 0 <= i < |r| ==> r[i] == (if IsMarkupChar(c[i]) then ' ' else c[i])
  {
    seq(|c|, i requires 0 <= i < |c| => if IsMarkupChar(c[i]) then ' ' else c[i])
  }

  /** The four later substitutions, each replacing its match by `\1` or by nothing. */
  datatype Markup =
    | Link        // `\[([^\]]+)\]\([^)]+\)`  ->  the link text
    | Image       // `!\[([^\]]*)\]\([^)]+\)`  ->  nothing
    | Fence       // "```[\s\S]*?```"          ->  nothing
    | InlineCode  // "`[^`]*`"                 ->  nothing

  predicate FenceAt(c: string, k: nat) {
    k + 3 <= |c| && c[k..k + 3] == "```"
  }

  /** Start of the first "```" at or after `from`, or `|c|`. */
  function FindFence(c: string, from: nat): (r: nat)
    requires from <= |c|
    ensures from <= r <= |c|
    ensures r < |c| ==> FenceAt(c, r)
    ensures forall k :: from <= k < r ==> !FenceAt(c, k)
    decreases |c| - from
  {
    if from == |c| then from
    else if FenceAt(c, from) then from
    else FindFence(c, from + 1)
  }

  /** The replacement a substitution makes at `i`, if its pattern matches there. */
  function MarkupAt(kind: Markup, c: string, i: nat): (r: Option<Edit>)
    ensures r.Some? ==> i < r.value.end <= |c|
    ensures r.Some? && kind != Image ==> c[i] in "[`"
    ensures r.Some? && kind == Image ==> i + 1 < |c| && c[i + 1] == '['
  {
    match kind
    case Link =>
      if i < |c| && c[i] == '[' then
        var j := Find(c, ']', i + 1);
        if i + 1 < j && j + 1 < |c| && c[j + 1] == '(' then
          var k := Find(c, ')', j + 2);
          if j + 2 < k < |c| then Some(Edit(k + 1, c[i + 1..j])) else None
        else None
      else None
    case Image =>
      (match MdAt(c, i)
       case Some(s) => Some(Edit(s.end, []))
       case None => None)
    case Fence =>
      if FenceAt(c, i) then
        var t := FindFence(c, i + 3);
        if t < |c| then Some(Edit(t + 3, [])) else None
      else None
    case InlineCode =>
      if i < |c| && c[i] == '`' then
        var k := Find(c, '`', i + 1);
        if k < |c| then Some(Edit(k + 1, [])) else None
      else None
  }

  /** `re.sub` of one markup pattern, from `from` on. */
  function RemoveFrom(kind: Markup, c: string, from: nat): string
    decreases |c| - from
  {
    if from >= |c| then []
    else
      match MarkupAt(kind, c, from)
      case Some(e) => e.text + RemoveFrom(kind, c, e.end)
      case None => [c[from]] + RemoveFrom(kind, c, from + 1)
  }

  function Remove(kind: Markup, c: string): string {
    RemoveFrom(kind, c, 0)
  }

  /** The text handed to keyword extraction (lines 63 to 69). */
  function CleanForTags(c: string): string {
    var c1 := BlankMarkup(c);
    var c2 := Remove(Link, c1);
    var c3 := Remove(Image, c2);
    var c4 := Remove(Fence, c3);
    Remove(InlineCode, c4)
  }

  /** A pattern with nowhere to match leaves the text as it is. */
  lemma {:induction false} RemoveUnchanged(kind: Markup, c: string, from: nat)
    requires from <= |c|
    requires forall p :: from <= p < |c| ==> MarkupAt(kind, c, p).None?
    ensures RemoveFrom(kind, c, from) == c[from..]
    decreases |c| - from
  {
    if from < |c| {
      RemoveUnchanged(kind, c, from + 1);
      assert c[from..] == [c[from]] + c[from + 1..];
    }
  }

  /** Once the first substitution has blanked every `[` and backquote, none
      of the link, image or code patterns can match any more. */
  lemma NoMarkupLeft(kind: Markup, c: string)
    requires forall i :: 0 <= i < |c| ==> !IsMarkupChar(c[i])
    ensures Remove(kind, c) == c
  {
    RemoveUnchanged(kind, c, 0);
    assert c[0..] == c;
  }

  /** Lines 64 to 69 never change anything: the text the keywords are taken
      from is exactly the text with every markup character blanked. */
  lemma CleanIsBlank(c: string)
    ensures CleanForTags(c) == BlankMarkup(c)
  {
    var c1 := BlankMarkup(c);
    NoMarkupLeft(Link, c1);
    NoMarkupLeft(Image, c1);
    NoMarkupLeft(Fence, c1);
    NoMarkupLeft(InlineCode, c1);
  }

  /** The segmenter's keywords, kept only when longer than one character. */
  function LongOnly(kws: seq<string>): (r: seq<string>)
    ensures forall i :: 0 <= i < |r| ==> |r[i]| > 1 && r[i] in kws
    ensures forall w :: w in kws && |w| > 1 ==> w in r
    ensures |r| <= |kws|
  {
    if |kws| == 0 then []
    else
      var rest := LongOnly(kws[1..]);
      assert forall w :: w in kws[1..] ==> w in kws;
      if |kws[0]| > 1 then [kws[0]] + rest else rest
  }

  /** The filter of line 75 keeps the keywords in order: it works on each
      part of the list separately. */
  lemma {:induction false} LongOnlyConcat(a: seq<string>, b: seq<string>)
    ensures LongOnly(a + b) == LongOnly(a) + LongOnly(b)
    decreases |a|
  {
    if |a| == 0 {
      assert a + b == b;
    } else {
      assert (a + b)[0] == a[0] && (a + b)[1..] == a[1..] + b;
      LongOnlyConcat(a[1..], b);
    }
  }

  /** A single keyword is kept exactly when it is longer than one character. */
  lemma LongOnlyOne(w: string)
    ensures |w| > 1 ==> LongOnly([w]) == [w]
    ensures |w| <= 1 ==> LongOnly([w]) == []
  {
    assert [w][1..] == [];
  }

  /** Python's `s[:n]`. */
  function Take<T>(s: seq<T>, n: nat): (r: seq<T>)
    ensures |r| == if |s| < n then |s| else n
    ensures forall i :: 0 <= i < |r| ==> r[i] == s[i]
  {
    if |s| <= n then s else s[..n]
  }

  // ---------------------------------------------------------------------
  // The fallback: `re.findall(r'\b[a-zA-Z]{3,}\b', content.lower())`
  // ---------------------------------------------------------------------

  /** End of the run of letters starting at `from`. */
  function LetterRunEnd(c: string, from: nat): (r: nat)
    requires from <= |c|
    ensures from <= r <= |c|
    ensures forall k :: from <= k < r ==> IsLetter(c[k])
    ensures r < |c| ==> !IsLetter(c[r])
    decreases |c| - from
  {
    if from < |c| && IsLetter(c[from]) then LetterRunEnd(c, from + 1) else from
  }

  /** A word boundary lies before `p`, which holds a word character. */
  predicate BoundaryBefore(c: string, p: nat)
    requires p <= |c|
  {
    p == 0 || !IsWordChar(c[p - 1])
  }

  /** The pattern matches `c[p..e]`: a boundary, at least three letters, a
      boundary. The letter run cannot stop inside a run of word characters,
      so the match is a whole word made only of letters. */
  predicate TokenShape(c: string, p: nat, e: nat) {
    && p + 3 <= e <= |c| && BoundaryBefore(c, p)
    && (forall k :: p <= k < e ==> IsLetter(c[k]))
    && (e == |c| || !IsWordChar(c[e]))
  }

  /** Where the word pattern matches at `p`, its end. */
  function TokenAt(c: string, p: nat): (r: Option<nat>)
    ensures r.Some? ==> TokenShape(c, p, r.value)
    ensures r.None? ==> forall e: nat :: !TokenShape(c, p, e)
  {
    if p < |c| && IsLetter(c[p]) && BoundaryBefore(c, p) then
      var e := LetterRunEnd(c, p);
      if p + 3 <= e && (e == |c| || !IsWordChar(c[e])) then Some(e) else None
    else None
  }

  /** `re.findall` of the word pattern from `from` on, as `(start, end)`
      positions: try each position, carry on after a match. */
  function TokenSpans(c: string, from: nat): (r: seq<(nat, nat)>)
    ensures forall t :: 0 <= t < |r| ==> from <= r[t].0 && TokenShape(c, r[t].0, r[t].1)
    ensures forall t :: 0 < t < |r| ==> r[t - 1].1 <= r[t].0
    decreases |c| - from
  {
    if from >= |c| then []
    else
      match TokenAt(c, from)
      case Some(e) => [(from, e)] + TokenSpans(c, e)
      case None => TokenSpans(c, from + 1)
  }

  /** Position `p` lies inside none of the spans. */
  predicate Outside(spans: seq<(nat, nat)>, p: nat) {
    forall t :: 0 <= t < |spans| ==> !(spans[t].0 <= p < spans[t].1)
  }

  /** `TokenSpans` misses nothing: no match starts at a position it did not
      step over. */
  lemma {:induction false} TokenSpansComplete(c: string, from: nat, p: nat)
    requires from <= p && Outside(TokenSpans(c, from), p)
    ensures TokenAt(c, p).None?
    decreases |c| - from
  {
    if from < |c| {
      match TokenAt(c, from)
      case Some(e) =>
        var rest := TokenSpans(c, e);
        assert TokenSpans(c, from) == [(from, e)] + rest;
        assert !(from <= p < e) by {
          assert ([(from, e)] + rest)[0] == (from, e);
        }
        if p >= e {
          forall t | 0 <= t < |rest| ensures !(rest[t].0 <= p < rest[t].1) {
            assert ([(from, e)] + rest)[t + 1] == rest[t];
          }
          TokenSpansComplete(c, e, p);
        }
      case None =>
        if p > from {
          TokenSpansComplete(c, from + 1, p);
        }
    }
  }

  /** The words `re.findall` returns, in text order. */
  function Words(c: string): (r: seq<string>)
    ensures |r| == |TokenSpans(c, 0)|
    ensures forall t :: 0 <= t < |r| ==> r[t] == c[TokenSpans(c, 0)[t].0..TokenSpans(c, 0)[t].1]
  {
    var spans := TokenSpans(c, 0);
    seq(|spans|, t requires 0 <= t < |spans| => c[spans[t].0..spans[t].1])
  }

  /** Every word has at least three letters, all lower-case when the text has
      no capitals. */
  lemma WordsAreLetters(c: string)
    ensures forall w :: w in Words(c) ==> |w| >= 3 && forall k :: 0 <= k < |w| ==> IsLetter(w[k])
    ensures (forall i :: 0 <= i < |c| ==> !IsUpper(c[i])) ==>
              forall w :: w in Words(c) ==> forall k :: 0 <= k < |w| ==> IsLower(w[k])
  {
    var ws := Words(c);
    var spans := TokenSpans(c, 0);
    forall t | 0 <= t < |ws|
      ensures |ws[t]| >= 3 && forall k :: 0 <= k < |ws[t]| ==> IsLetter(ws[t][k]) && ws[t][k] == c[spans[t].0 + k]
    {
      assert TokenShape(c, spans[t].0, spans[t].1);
    }
  }

  // ---------------------------------------------------------------------
  // `Counter(words).most_common(max_tags)`
  // ---------------------------------------------------------------------

  /** How often `w` occurs in `ws`: the value `Counter` keeps for it. */
  function Count(ws: seq<string>, w: string): (n: nat)
    ensures n <= |ws|
    ensures n > 0 <==> w in ws
  {
    if |ws| == 0 then 0
    else
      assert forall v :: v in ws <==> v == ws[0] || v in ws[1..];
      (if ws[0] == w then 1 else 0) + Count(ws[1..], w)
  }

  /** The count is the multiplicity of `w` in the words. */
  lemma {:induction false} CountIsMultiplicity(ws: seq<string>, w: string)
    ensures Count(ws, w) == multiset(ws)[w]
    decreases |ws|
  {
    if |ws| > 0 {
      CountIsMultiplicity(ws[1..], w);
      assert ws == [ws[0]] + ws[1..];
    }
  }

  /** Counts never increase along `r`. */
  predicate Ranked(r: seq<string>, ws: seq<string>) {
    forall i :: 0 < i < |r| ==> Count(ws, r[i - 1]) >= Count(ws, r[i])
  }

  /** No candidate left out of non-empty `r` outranks its last element. */
  predicate Dominates(r: seq<string>, cands: seq<string>, ws: seq<string>) {
    |r| > 0 ==> forall k :: 0 <= k < |cands| && cands[k] !in r ==> Count(ws, cands[k]) <= Count(ws, r[|r| - 1])
  }

  predicate Distinct(s: seq<string>) {
    forall i, j :: 0 <= i < j < |s| ==> s[i] != s[j]
  }

  /** The distinct words in order of first occurrence: the key order of `Counter`. */
  function Uniq(ws: seq<string>): (r: seq<string>)
    ensures Distinct(r)
    ensures forall w :: w in r <==> w in ws
    decreases |ws|
  {
    if |ws| == 0 then []
    else
      var init := ws[..|ws| - 1];
      var u := Uniq(init);
      assert ws == init + [ws[|ws| - 1]];
      if ws[|ws| - 1] in u then u else u + [ws[|ws| - 1]]
  }

  /** Index of the first candidate with the highest count. */
  function FirstMax(cands: seq<string>, ws: seq<string>): (i: nat)
    requires |cands| > 0
    ensures i < |cands|
    ensures forall j :: 0 <= j < |cands| ==> Count(ws, cands[j]) <= Count(ws, cands[i])
    ensures forall j :: 0 <= j < i ==> Count(ws, cands[j]) < Count(ws, cands[i])
    decreases |cands|
  {
    if |cands| == 1 then 0
    else
      var init := cands[..|cands| - 1];
      var k := FirstMax(init, ws);
      assert forall j :: 0 <= j < |init| ==> init[j] == cands[j];
      if Count(ws, cands[|cands| - 1]) > Count(ws, cands[k]) then |cands| - 1 else k
  }

  /** `cands` without its `i`-th element. */
  function Without(cands: seq<string>, i: nat): (r: seq<string>)
    requires i < |cands| && Distinct(cands)
    ensures Distinct(r) && |r| == |cands| - 1
    ensures forall w :: w in r <==> w in cands && w != cands[i]
  {
    var r := cands[..i] + cands[i + 1..];
    assert forall j :: 0 <= j < |r| ==> r[j] == (if j < i then cands[j] else cands[j + 1]);
    assert forall j :: 0 <= j < |cands| && j != i ==> cands[j] == r[if j < i then j else j - 1];
    r
  }

  /** Repeatedly take the first candidate of highest count: a stable sort by
      descending count, cut after `n`. */
  function Select(cands: seq<string>, ws: seq<string>, n: nat): (r: seq<string>)
    requires Distinct(cands)
    ensures |r| == if |cands| < n then |cands| else n
    ensures Distinct(r)
    ensures forall w :: w in r ==> w in cands
    ensures |r| < n ==> forall w :: w in cands ==> w in r
    ensures |r| > 0 ==> r[0] == cands[FirstMax(cands, ws)]
    decreases n
  {
    if n == 0 || |cands| == 0 then []
    else
      var i := FirstMax(cands, ws);
      var m := cands[i];
      var rest := Without(cands, i);
      var tail := Select(rest, ws, n - 1);
      ConsDistinct(m, tail);
      [m] + tail
  }

  lemma ConsDistinct(m: string, tail: seq<string>)
    requires Distinct(tail) && m !in tail
    ensures Distinct([m] + tail)
    ensures forall w :: w in [m] + tail <==> w == m || w in tail
  {
    var r := [m] + tail;
    assert forall t :: 1 <= t < |r| ==> r[t] == tail[t - 1];
  }

  /** One step of the selection: the first maximum, then the selection from
      the other candidates. */
  lemma SelectStep(cands: seq<string>, ws: seq<string>, m: nat)
    requires Distinct(cands) && |cands| > 0
    ensures var i := FirstMax(cands, ws);
            Select(cands, ws, m + 1) == [cands[i]] + Select(Without(cands, i), ws, m)
  {
  }

  /** The first maximum has at least the count of any candidate. */
  lemma MaxBeatsAll(cands: seq<string>, ws: seq<string>, w: string)
    requires |cands| > 0 && w in cands
    ensures Count(ws, w) <= Count(ws, cands[FirstMax(cands, ws)])
  {
    var j :| 0 <= j < |cands| && cands[j] == w;
  }

  /** Putting a word no less frequent than the head in front keeps the order. */
  lemma RankedCons(m: string, tail: seq<string>, ws: seq<string>)
    requires Ranked(tail, ws)
    requires |tail| > 0 ==> Count(ws, m) >= Count(ws, tail[0])
    ensures Ranked([m] + tail, ws)
  {
    var r := [m] + tail;
    assert forall k :: 0 < k < |r| ==> r[k] == tail[k - 1];
  }

  /** The selection is ordered by count, highest first. The proofs below
      name the predecessor of `n` as `m` instead of writing `n - 1`, which
      keeps the solver from unfolding `Select` on the difference. */
  lemma {:induction false} SelectRanked(cands: seq<string>, ws: seq<string>, n: nat)
    requires Distinct(cands)
    ensures Ranked(Select(cands, ws, n), ws)
    decreases n
  {
    if n > 0 && |cands| > 0 {
      var i := FirstMax(cands, ws);
      var rest := Without(cands, i);
      var m: nat :| m + 1 == n;
      var tail := Select(rest, ws, m);
      SelectRanked(rest, ws, m);
      SelectStep(cands, ws, m);
      if |tail| > 0 {
        assert tail[0] in rest;
        MaxBeatsAll(cands, ws, tail[0]);
      }
      RankedCons(cands[i], tail, ws);
      assert Select(cands, ws, n) == [cands[i]] + tail;
    }
  }

  /** `Dominates` for one candidate left out. */
  lemma DominatesAt(r: seq<string>, cands: seq<string>, ws: seq<string>, w: string)
    requires Dominates(r, cands, ws) && |r| > 0
    requires w in cands && w !in r
    ensures Count(ws, w) <= Count(ws, r[|r| - 1])
  {
    var k :| 0 <= k < |cands| && cands[k] == w;
  }

  /** Putting the first maximum in front of a selection from the other
      candidates keeps everything left out below the last word taken. */
  lemma DominatesCons(cands: seq<string>, ws: seq<string>, i: nat, rest: seq<string>, tail: seq<string>)
    requires Distinct(cands) && |cands| > 0
    requires i == FirstMax(cands, ws) && rest == Without(cands, i)
    requires Dominates(tail, rest, ws)
    ensures Dominates([cands[i]] + tail, cands, ws)
  {
    var m := cands[i];
    var r := [m] + tail;
    var last := r[|r| - 1];
    assert last == if |tail| > 0 then tail[|tail| - 1] else m;
    forall k | 0 <= k < |cands| && cands[k] !in r ensures Count(ws, cands[k]) <= Count(ws, last) {
      var w := cands[k];
      assert w != m && w !in tail;
      assert w in rest;
      if |tail| > 0 {
        DominatesAt(tail, rest, ws, w);
      } else {
        MaxBeatsAll(cands, ws, w);
      }
    }
  }

  /** Nothing left behind outranks the last word taken. */
  lemma {:induction false} SelectDominates(cands: seq<string>, ws: seq<string>, n: nat)
    requires Distinct(cands)
    ensures Dominates(Select(cands, ws, n), cands, ws)
    decreases n
  {
    if n > 0 && |cands| > 0 {
      var i := FirstMax(cands, ws);
      var rest := Without(cands, i);
      var m: nat :| m + 1 == n;
      SelectDominates(rest, ws, m);
      var tail := Select(rest, ws, m);
      DominatesCons(cands, ws, i, rest, tail);
      SelectStep(cands, ws, m);
      assert Select(cands, ws, n) == [cands[i]] + tail;
    }
  }

  /** `Counter(words).most_common(n)`. */
  function MostCommon(ws: seq<string>, n: nat): (r: seq<string>)
    ensures |r| <= n && Distinct(r)
    ensures forall w :: w in r ==> w in ws
    ensures |r| == n || forall w :: w in ws ==> w in r
  {
    Select(Uniq(ws), ws, n)
  }

  /** The most common words come highest count first, and no word left out
      occurs more often than the last one taken. */
  lemma MostCommonRanked(ws: seq<string>, n: nat)
    ensures Ranked(MostCommon(ws, n), ws)
    ensures Dominates(MostCommon(ws, n), ws, ws)
  {
    SelectRanked(Uniq(ws), ws, n);
    SelectDominates(Uniq(ws), ws, n);
  }

  /** The tags of a note. `segment` stands for `jieba.analyse.extract_tags`
      on the cleaned text; `None` is the case in which it raises. */
  function ExtractTags(c: string, segment: string -> Option<seq<string>>, maxTags: nat): (r: seq<string>)
    ensures |r| <= maxTags
  {
    var cleaned := CleanForTags(c);
    match segment(cleaned)
    case Some(kws) => Take(LongOnly(kws), maxTags)
    case None => MostCommon(Words(LowerStr(cleaned)), maxTags)
  }

  /** With the segmenter working, the tags are its keywords of more than one
      character, in its order, cut at `maxTags`. */
  lemma SegmenterTags(c: string, segment: string -> Option<seq<string>>, maxTags: nat)
    requires segment(CleanForTags(c)).Some?
    ensures var r := ExtractTags(c, segment, maxTags);
            var kws := segment(CleanForTags(c)).value;
            && (forall w :: w in r ==> w in kws && |w| > 1)
            && (|r| < maxTags ==> forall w :: w in kws && |w| > 1 ==> w in r)
            && |r| == (if |LongOnly(kws)| < maxTags then |LongOnly(kws)| else maxTags)
            && r == LongOnly(kws)[..|r|]
  {
    var kws := segment(CleanForTags(c)).value;
    var long := LongOnly(kws);
    var r := ExtractTags(c, segment, maxTags);
    assert r == Take(long, maxTags);
    forall w | w in r ensures w in kws && |w| > 1 {
      var i :| 0 <= i < |r| && r[i] == w;
      assert w == long[i];
    }
    if |r| < maxTags {
      assert r == long;
    }
  }

  /** When the segmenter fails, the tags are distinct words of at least three
      lower-case letters from the text with the markup blanked: `maxTags` of
      them, or all of them when there are fewer, and no word left out is more
      frequent than the last one taken. */
  lemma FallbackTags(c: string, segment: string -> Option<seq<string>>, maxTags: nat)
    requires segment(CleanForTags(c)).None?
    ensures var r := ExtractTags(c, segment, maxTags);
            var ws := Words(LowerStr(BlankMarkup(c)));
            && Distinct(r)
            && (forall w :: w in r ==> w in ws && |w| >= 3 && forall k :: 0 <= k < |w| ==> IsLower(w[k]))
            && Ranked(r, ws) && Dominates(r, ws, ws)
            && (|r| == maxTags || forall w :: w in ws ==> w in r)
  {
    CleanIsBlank(c);
    var low := LowerStr(BlankMarkup(c));
    assert forall i :: 0 <= i < |low| ==> !IsUpper(low[i]);
    WordsAreLetters(low);
    MostCommonRanked(Words(low), maxTags);
  }
}

=== FILE: title.dfy ===
/** `extract_title_from_content`: the first level-one heading, else a title
    derived from the input file's stem, else "Untitled Post". */
module Title {
  import opened Chars
  import opened Strings

  /** What the migrator was started on; only a single file has a usable stem. */
  datatype InputKind = SingleFile(stem: string) | Batch

  /** Where `^` may match under MULTILINE: the start of the text or just after a newline. */
  predicate IsLineStart(c: string, p: nat) {
    p <= |c| && (p == 0 || c[p - 1] == '\n')
  }

  /** The pattern `#\s+(.+)$` matches at `p` with its group starting at `s`:
      `#` at `p`, a non-empty whitespace run on `c[p+1..s]` (newlines included,
      as in `\s`), and a character other than a newline at `s`. The group then
      runs to the end of that line, which also satisfies `$`. */
  predicate HeadingShape(c: string, p: nat, s: nat) {
    p + 2 <= s < |c| && c[p] == '#' && AllSpace(c, p + 1, s) && c[s] != '\n'
  }

  /** The heading regex matches at `p`. */
  ghost predicate HasHeading(c: string, p: nat) {
    IsLineStart(c, p) && exists s: nat :: HeadingShape(c, p, s)
  }

  /** Index of the first newline at or after `s`, or `|c|`: where `.+` stops. */
  function LineEnd(c: string, s: nat): nat
    requires s <= |c|
  {
    Find(c, '\n', s)
  }

  /** The largest `k` in `[lo, hi)` with `c[k]` not a newline. */
  function LastNonNewline(c: string, lo: nat, hi: nat): (r: Option<nat>)
    requires lo <= hi <= |c|
    ensures r.Some? ==> lo <= r.value < hi && c[r.value] != '\n'
    ensures r.Some? ==> forall k :: r.value < k < hi ==> c[k] == '\n'
    ensures r.None? ==> forall k :: lo <= k < hi ==> c[k] == '\n'
    decreases hi - lo
  {
    if hi == lo then None
    else if c[hi - 1] != '\n' then Some(hi - 1)
    else LastNonNewline(c, lo, hi - 1)
  }

  /** Where the group of the heading regex starts when it matches at `p`.
      `\s+` is greedy, so among all shapes the one with the largest `s` is
      the one the regex engine finds first. */
  function HeadingAt(c: string, p: nat): (r: Option<nat>)
    ensures r.Some? ==> HeadingShape(c, p, r.value)
    ensures r.Some? ==> forall s: nat :: HeadingShape(c, p, s) ==> s <= r.value
    ensures r.None? ==> forall s: nat :: !HeadingShape(c, p, s)
  {
    if p < |c| && c[p] == '#' then
      var e := SkipSpaces(c, p + 1);
      if e == p + 1 then None
      else if e < |c| then Some(e)
      else LastNonNewline(c, p + 2, |c|)
    else None
  }

  /** `re.search` with MULTILINE from position `from`: the leftmost line start
      at which the heading regex matches, with its group start. */
  function FirstHeading(c: string, from: nat): (r: Option<(nat, nat)>)
    requires from <= |c| + 1
    ensures r.Some? ==> from <= r.value.0 && IsLineStart(c, r.value.0)
    ensures r.Some? ==> HeadingShape(c, r.value.0, r.value.1)
    ensures r.Some? ==> forall s: nat :: HeadingShape(c, r.value.0, s) ==> s <= r.value.1
    ensures r.Some? ==> forall p: nat :: from <= p < r.value.0 ==> !HasHeading(c, p)
    ensures r.None? ==> forall p: nat :: from <= p ==> !HasHeading(c, p)
    decreases |c| + 1 - from
  {
    if from > |c| then None
    else if IsLineStart(c, from) && HeadingAt(c, from).Some? then
      Some((from, HeadingAt(c, from).value))
    else
      FirstHeading(c, from + 1)
  }

  /** `re.sub(r'[_-]', ' ', stem).title()` on the ASCII model. */
  function StemTitle(stem: string): (r: string)
    ensures |r| == |stem|
    ensures forall i :: 0 <= i < |r| && (stem[i] == '_' || stem[i] == '-') ==> r[i] == ' '
  {
    TitleCase(SeparatorsToSpaces(stem))
  }

  function SeparatorsToSpaces(s: string): (r: string)
    ensures |r| == |s|
    ensures forall i :: 0 <= i < |s| ==> r[i] == (if s[i] == '_' || s[i] == '-' then ' ' else s[i])
  {
    seq(|s|, i requires 0 <= i < |s| => if s[i] == '_' || s[i] == '-' then ' ' else s[i])
  }

  function TitleCase(s: string): (r: string)
    ensures |r| == |s|
    ensures forall i :: 0 <= i < |s| ==> (IsLetter(r[i]) <==> IsLetter(s[i]))
  {
    TitleCaseFrom(s, false)
  }

  /** `str.title` with `prevCased` telling whether the character before `s`
      was cased: a letter after a cased character is lowered, a letter after
      anything else is raised, every other character is kept. */
  function TitleCaseFrom(s: string, prevCased: bool): (r: string)
    ensures |r| == |s|
    ensures |s| > 0 && IsLetter(s[0]) && prevCased ==> r[0] == Lower(s[0])
    ensures |s| > 0 && IsLetter(s[0]) && !prevCased ==> r[0] == Upper(s[0])
    ensures forall i :: 0 < i < |s| && IsLetter(s[i]) && IsLetter(s[i - 1]) ==> r[i] == Lower(s[i])
    ensures forall i :: 0 < i < |s| && IsLetter(s[i]) && !IsLetter(s[i - 1]) ==> r[i] == Upper(s[i])
    ensures forall i :: 0 <= i < |s| && !IsLetter(s[i]) ==> r[i] == s[i]
    ensures forall i :: 0 <= i < |s| ==> (IsLetter(r[i]) <==> IsLetter(s[i]))
    decreases |s|
  {
    if |s| == 0 then []
    else
      var c := if IsLetter(s[0]) then (if prevCased then Lower(s[0]) else Upper(s[0])) else s[0];
      var tail := TitleCaseFrom(s[1..], IsLetter(s[0]));
      assert forall i :: 0 < i < |s| ==> s[i] == s[1..][i - 1];
      [c] + tail
  }

  /** Title-casing a title-cased string changes nothing. */
  lemma TitleCaseIdempotent(s: string)
    ensures TitleCase(TitleCase(s)) == TitleCase(s)
  {
    var r := TitleCase(s);
    var rr := TitleCase(r);
    forall i | 0 <= i < |s| ensures rr[i] == r[i] {
      if !IsLetter(s[i]) {
      } else if i == 0 {
        assert r[0] == Upper(s[0]) && rr[0] == Upper(r[0]);
      } else if IsLetter(s[i - 1]) {
        assert r[i] == Lower(s[i]) && rr[i] == Lower(r[i]);
      } else {
        assert r[i] == Upper(s[i]) && rr[i] == Upper(r[i]);
      }
    }
  }

  /** The fallback when no heading matches. */
  function FallbackTitle(input: InputKind): string {
    match input
    case SingleFile(stem) => StemTitle(stem)
    case Batch => "Untitled Post"
  }

  /** `extract_title_from_content`. */
  function ExtractTitle(c: string, input: InputKind): string {
    match FirstHeading(c, 0)
    case Some((p, s)) => Strip(c[s..LineEnd(c, s)])
    case None => FallbackTitle(input)
  }

  /** Stripping adds no character. */
  lemma StripNoNewline(seg: string)
    requires '\n' !in seg
    ensures '\n' !in Strip(seg)
  {
    var r := Strip(seg);
    var i :| 0 <= i <= |seg| - |r| && seg[i..i + |r|] == r && AllSpace(seg, 0, i) && AllSpace(seg, i + |r|, |seg|);
    assert forall k :: 0 <= k < |r| ==> r[k] == seg[i + k];
  }

  /** Title-casing a stem adds no newline. */
  lemma StemTitleNoNewline(stem: string)
    requires '\n' !in stem
    ensures '\n' !in StemTitle(stem)
  {
    var u := SeparatorsToSpaces(stem);
    var t := TitleCaseFrom(u, false);
    forall k | 0 <= k < |t| ensures t[k] != '\n' {
      assert stem[k] != '\n';
      if !IsLetter(u[k]) {
        assert t[k] == u[k];
      }
    }
  }

  /** The title never spans lines: a heading title stops at the end of its
      line, and a stem without a newline gives a title without one. */
  lemma TitleOneLine(c: string, input: InputKind)
    requires input.SingleFile? ==> '\n' !in input.stem
    ensures '\n' !in ExtractTitle(c, input)
  {
    match FirstHeading(c, 0)
    case Some((p, s)) =>
      var seg := c[s..LineEnd(c, s)];
      assert forall k :: 0 <= k < |seg| ==> seg[k] == c[s + k];
      StripNoNewline(seg);
    case None =>
      if input.SingleFile? {
        StemTitleNoNewline(input.stem);
      }
  }

  /** When the regex matches, the title is the stripped group of the leftmost
      match, taken from its greedy start `s` to the end of that line. */
  lemma TitleIsFirstHeading(c: string, input: InputKind, p: nat, s: nat)
    requires IsLineStart(c, p) && HeadingShape(c, p, s)
    requires forall p': nat :: p' < p ==> !HasHeading(c, p')
    requires forall s': nat :: HeadingShape(c, p, s') ==> s' <= s
    ensures ExtractTitle(c, input) == Strip(c[s..LineEnd(c, s)])
  {
    assert HasHeading(c, p);
    var r := FirstHeading(c, 0);
    assert r.Some?;
    var p0 := r.value.0;
    var s0 := r.value.1;
    assert HasHeading(c, p0) by { assert HeadingShape(c, p0, s0); }
    assert !(p < p0);
    assert !(p0 < p);
    assert s0 == s;
  }

  /** Without any match the title comes from the input: the title-cased stem
      for a single file, "Untitled Post" for a batch. */
  lemma TitleFallback(c: string, input: InputKind)
    requires forall p: nat :: !HasHeading(c, p)
    ensures ExtractTitle(c, input) == FallbackTitle(input)
    ensures input.Batch? ==> ExtractTitle(c, input) == "Untitled Post"
  {
    match FirstHeading(c, 0)
    case Some((p0, s0)) =>
      assert HasHeading(c, p0) by { assert HeadingShape(c, p0, s0); }
    case None =>
  }

  /** A `##` line never matches: a whitespace character must follow the `#`. */
  lemma SecondLevelNeverMatches(c: string, p: nat)
    requires p + 1 < |c| && c[p] == '#' && c[p + 1] == '#'
    ensures !HasHeading(c, p)
  {
  }

  /** A text opening with `# ` and a non-space, whose first line ends at `e`
      on a non-space, is titled by the rest of that line. */
  lemma OpeningHeading(c: string, input: InputKind, e: nat)
    requires 2 < e < |c| && c[0] == '#' && c[1] == ' ' && !IsSpace(c[2])
    requires c[e] == '\n' && !IsSpace(c[e - 1]) && NoneOf(c, 2, e, '\n')
    ensures ExtractTitle(c, input) == c[2..e]
  {
    assert HeadingShape(c, 0, 2);
    assert forall s': nat :: HeadingShape(c, 0, s') ==> s' <= 2;
    TitleIsFirstHeading(c, input, 0, 2);
    assert LineEnd(c, 2) == e;
    StripUntouched(c[2..e]);
  }

  /** A document starting with `# My Title` is titled `My Title`. */
  lemma MyTitleExample(head: string, rest: string, input: InputKind)
    requires head == "# My Title\n"
    ensures ExtractTitle(head + rest, input) == "My Title"
  {
    var c := head + rest;
    MyTitleShape(head, rest, c);
    OpeningHeading(c, input, 10);
  }

  /** The characters of `# My Title` at the front of a document. */
  lemma MyTitleShape(head: string, rest: string, c: string)
    requires head == "# My Title\n" && c == head + rest
    ensures 10 < |c| && c[0] == '#' && c[1] == ' ' && c[2] == 'M' && c[9] == 'e' && c[10] == '\n'
    ensures NoneOf(c, 2, 10, '\n') && c[2..10] == "My Title"
  {
    assert c[..11] == head;
    assert c[2..10] == head[2..10];
  }

  /** A single file `my_note.md` without a heading is titled `My Note`. */
  lemma MyNoteExample(stem: string)
    requires stem == "my_note"
    ensures StemTitle(stem) == "My Note"
  {
    var u := SeparatorsToSpaces(stem);
    assert u[0] == 'm' && u[1] == 'y' && u[2] == ' ' && u[3] == 'n';
    assert u[4] == 'o' && u[5] == 't' && u[6] == 'e';
    var t := TitleCaseFrom(u, false);
    assert t[0] == Upper('m') == 'M';
    assert t[1] == Lower('y') == 'y';
    assert t[2] == ' ';
    assert t[3] == Upper('n') == 'N';
    assert t[4] == Lower('o') == 'o';
    assert t[5] == Lower('t') == 't';
    assert t[6] == Lower('e') == 'e';
    assert t == "My Note";
  }
}
